=== FILE: README.md ===
# Wasted-start pipeline: a Dafny model

The repository fetches MLB game results from the public stats API and classifies each starting pitcher's outing. A *quality start* is at least 6.0 innings with at most 3 earned runs. A *wasted start* is a quality start that did not earn the starter a win. The starts are then rolled up into a season leaderboard. The pipeline exists twice: in `streamlit_app.py` (dashboard) and in `app.py` (Flask JSON API). The two copies differ in small ways.

This project models the pure core of both copies, with the HTTP responses supplied as values:

- **Collector** (`get_game_by_game`). It resolves the year and league to a date window and sport id. It keeps only `Final` games. On each side of a boxscore, it takes the first listed pitcher as the starter and classifies the decision as W, L or ND. It drops starts under 4.0 innings and derives `quality_start` and `wasted_start`. Modules: `Starts` for the shared classification, then `StreamlitCollector` and `AppCollector`. The two copies handle exceptions differently. `streamlit_app.py` uses bare `except:` clauses. `app.py` catches only `RequestException`, so conversion errors and a missing `gamePk` propagate out of it.
- **Season aggregator** (`aggregate_pitcher_season_stats`), in module `Aggregation`. It groups starts by (pitcher_name, team) in pandas' sorted key order and totals the counting columns and W/L. It derives ERA, WHIP and, in the Streamlit copy, QS% and Wasted%. It keeps the groups with at least `min_starts` starts.
- **Example attachment** (`get_wasted_start_examples`, `app.py` only), in module `WastedExamples`. Each row gets its pitcher name's earliest wasted start by ISO date string, or the marker `"No wasted starts"`.
- **API output** (`get_stats`), in module `StatsApi`. It returns 404 on no data and sorts the rows by `Wasted_Starts`, largest first.

Representation:

- Innings pitched are integer tenths of the string as written. The source runs `float("6.1")` and sums floats, so "6.1" counts as 6.1 innings, not 6⅓. The model follows that decimal reading.
- Ratios are exact `real`s. `None` stands where pandas would produce an infinity or NaN.
- Strings are compared by code point, as Python compares `str`.
- The remote API is a `Source` value of two total functions. One maps a schedule query to an optional schedule. The other maps a `gamePk` to an optional boxscore. `None` stands for a request that raised a `RequestException`.
- A numeric field that `int()`/`float()` would reject is `Malformed`. An absent field is supplied as its default.

## Model

| member | source | states |
|---|---|---|
| Text.ToLower | streamlit_app.py:18 | `league.lower()` on ASCII: same length, each capital A-Z becomes its own lower-case letter, every other character is unchanged |
| Text.LexIrreflexive | app.py:158 | Python's `str` order, used to sort group keys and game dates, is irreflexive |
| Text.LexTransitive | app.py:158 | that order is transitive |
| Text.LexTotal | app.py:158 | that order is total: of two different strings one is less |
| Starts.SportId | streamlit_app.py:8-18 | the sport id is one of 1, 11, 12, 13, 14; a lower-cased known league maps to its table entry, any other league to 1 |
| Starts.SportIdIgnoresCase | streamlit_app.py:18 | mixed-case league names find their entry: "Triple-A" gives 11, "LOW-A" gives 14 |
| Starts.SeasonWindow | streamlit_app.py:19-26 | a window exists exactly for 2023, 2024 and 2025 |
| Starts.SeasonWindowWellFormed | streamlit_app.py:19-24 | each window is two `YYYY-MM-DD` dates inside its own year, the start strictly before the end |
| Starts.QueryFor | streamlit_app.py:18-28 | a schedule query is made exactly for the supported years, with the league's sport id and exactly that year's window: two `YYYY-MM-DD` dates of the year, start before end |
| Starts.DecisionCode | streamlit_app.py:70-76 | the decision text is never empty and is "W" exactly for a win |
| Starts.Classify | streamlit_app.py:70-76 | W iff the starter is the winner; L iff not the winner but the loser; ND iff neither; an absent id matches no one |
| Starts.WastedImpliesQuality | streamlit_app.py:79-80 | in a well-formed record a wasted start is a quality start without a win, and a quality start has at least 6.0 innings and at most 3 earned runs |
| Starts.StarterStats | streamlit_app.py:52-67 | a starter is found iff the side lists a pitcher, the first listed is among the players, and that player's pitching stats are present |
| Starts.SideOutcome | streamlit_app.py:52-98 | a side is skipped iff it has no starter with stats, or its innings and earned runs convert and innings are under 4.0; it raises before the 4.0 filter iff innings or earned runs do not convert; it emits iff all stats convert and innings are at least 4.0; the emitted record is well formed, names the first listed pitcher with "Unknown" and "" defaults, carries that pitcher's stats and decision, and the game's id and date |
| StreamlitCollector.SidesStarts | streamlit_app.py:52-101 | at most one record per side, each well formed, each emitted by one of the sides for this game |
| StreamlitCollector.GameStarts | streamlit_app.py:44-101 | a boxscore yields at most two records, all well formed and stamped with the game's id and date |
| StreamlitCollector.GamesStarts | streamlit_app.py:38-101 | the date's result is `None` (the `KeyError` reaching the outer handler) iff some final game lacks `gamePk`; records are well formed and come only from games whose detailed state is exactly "Final" |
| StreamlitCollector.DatesStarts | streamlit_app.py:36-101 | `None` iff some final game of the schedule lacks `gamePk`; every record is well formed and comes from a final game of the schedule, carrying that game's date |
| StreamlitCollector.Collect | streamlit_app.py:17-105 | `None` for an unsupported year; any result is non-empty, well formed, and drawn from final games of the schedule fetched for that year and league |
| StreamlitCollector.HomeRecordSurvivesAwayFailure | streamlit_app.py:52-101 | an exception on the away side keeps the home record already appended |
| StreamlitCollector.HomeFailureAbandonsGame | streamlit_app.py:52-101 | an exception on the home side abandons the away side too |
| StreamlitCollector.GameStartsExact | streamlit_app.py:44-101 | a game's records are exactly: none when the home side raises, otherwise the home side's emitted record followed by the away side's |
| StreamlitCollector.SidesComplete | streamlit_app.py:52-98 | every emitted side's record is returned unless an earlier side raised |
| StreamlitCollector.GamesComplete | streamlit_app.py:38-101 | every record of every fetched final game of a date is in that date's result |
| StreamlitCollector.DatesComplete | streamlit_app.py:36-101 | every record of every fetched final game of the schedule is in the season's result |
| StreamlitCollector.CollectComplete | streamlit_app.py:17-105 | when the schedule is fetched, every final game carries `gamePk`, and some fetched final game has a qualifying start, the result is present and holds every start of that game |
| StreamlitCollector.GamesSound | streamlit_app.py:38-101 | every record of a date is one of the records of a final game of that date whose boxscore was fetched |
| StreamlitCollector.DatesSound | streamlit_app.py:36-101 | every record of the season is one of the records of a fetched final game of the schedule |
| StreamlitCollector.CollectSound | streamlit_app.py:17-105 | every record returned is one of the records of a fetched final game of the schedule fetched for that year and league |
| StreamlitCollector.GamesStartsOne | streamlit_app.py:38-101 | a single game contributes nothing unless final, raises to the outer handler without `gamePk`, contributes nothing when its boxscore request fails, and otherwise contributes exactly its records |
| StreamlitCollector.GamesStartsAppend | streamlit_app.py:38-101 | the games loop over two consecutive runs of games is the first run's records followed by the second's, so each game's records appear exactly once |
| StreamlitCollector.DatesStartsOne | streamlit_app.py:36-101 | a single schedule date contributes exactly the records of its games loop |
| StreamlitCollector.DatesStartsAppend | streamlit_app.py:36-101 | the dates loop over two consecutive runs of dates is the first run's records followed by the second's |
| AppCollector.SideStep | app.py:83-118 | under app.py's handlers a skipped side continues; a conversion error escapes as `ValueError`, except that with `game_date` unbound a failure at hits/walks/strikeouts is preceded by `NameError`; with the date bound an emitted record is kept; with it unbound no record can be kept; never `KeyError` |
| AppCollector.SidesStarts | app.py:64-112 | a boxscore returns normally iff no side raises, yielding at most one record per side; what escapes is never `KeyError` |
| AppCollector.GamesStarts | app.py:47-118 | returning normally implies every final game of the date carries `gamePk`; a `KeyError` implies one does not |
| AppCollector.DatesStarts | app.py:46-118 | returning normally implies every final game of the schedule carries `gamePk`; a `KeyError` implies one does not |
| AppCollector.MissingPkRaisesKeyError | app.py:48-51 | the first final game without `gamePk` raises `KeyError` unless an earlier game already raised |
| AppCollector.SideFailureEscapes | app.py:54-118 | an exception from a side of a fetched final game (a `ValueError` from a conversion, or `NameError`) escapes the games loop unless an earlier game already raised |
| AppCollector.DateFailureEscapes | app.py:46-118 | an exception inside one date's games escapes the dates loop unless an earlier date already raised |
| AppCollector.GamesSucceed | app.py:47-118 | the games loop returns normally exactly when every final game has its `gamePk` and the sides of every final game whose boxscore was fetched return normally |
| AppCollector.DatesSucceed | app.py:46-118 | the dates loop returns normally exactly when every final game of the schedule has its `gamePk` and no side of a fetched final game raises |
| AppCollector.CollectWith | app.py:18-126 | unsupported year, or a schedule request that raises `RequestException`, gives `None` without raising; once the schedule is fetched, a loop that returns normally makes the collector return normally, an empty season gives `None` (app.py:120-121), and any returned list is non-empty |
| AppCollector.CollectRaisesWhatTheLoopRaises | app.py:39-126 | an exception escaping the schedule loop escapes the collector unchanged, since only `RequestException` is caught |
| AppCollector.Collect | app.py:18-126 | as `CollectWith`, with `game_date` taken from the schedule date: `None` for an unsupported year, a failed schedule request or an empty season |
| AppCollector.CollectAsWritten | app.py:18-126 | the collector with `game_date` unbound: `None` for an unsupported year, a failed schedule request or an empty season |
| AppCollector.FailedBoxscoreSkipsOnlyThatGame | app.py:54-118 | a `RequestException` on one boxscore drops that game and leaves the rest of the result unchanged |
| AppCollector.SidesAgree | app.py:64-112 | a boxscore that returns normally yields exactly the Streamlit copy's records |
| AppCollector.GamesAgree | app.py:47-118 | a date that returns normally yields exactly the Streamlit copy's records |
| AppCollector.DatesAgree | app.py:46-118 | a schedule that returns normally yields exactly the Streamlit copy's records |
| AppCollector.CollectAgreesWithStreamlit | app.py:64-97 | whenever app.py's collector returns normally, it returns exactly what the Streamlit collector returns |
| AppCollector.CollectSucceeds | app.py:18-126 | with the schedule fetched, every final game keyed and no side of a fetched final game raising, the collector returns normally with exactly the Streamlit collector's result |
| AppCollector.CollectReturnsExactly | app.py:18-126 | the collector returns normally exactly when the year is unsupported, the schedule request fails, or every final game is keyed and no side of a fetched final game raises |
| AppCollector.CollectWellFormed | app.py:94-97 | every record app.py's collector returns has at least 4.0 innings and flags consistent with innings, earned runs and decision |
| AppCollector.AsWrittenRaisesWhereCorrectedYields | app.py:99-102 | wherever the corrected collector returns records, the code as written raises NameError |
| AppCollector.AsWrittenNeverYieldsRecords | app.py:99-126 | as written, the collector either returns `None` or raises; it never returns a record |
| AppCollector.GameDateCounterexample | app.py:102 | a one-game season with a 7.0-inning start: as written NameError, corrected the single wasted start |
| Aggregation.Summary | streamlit_app.py:108-122 | GS is the number of starts; 0 <= Quality, Wasted <= GS; W, L >= 0 and W + L <= GS |
| Aggregation.SummaryOfWellFormed | streamlit_app.py:108-122 | over emitted records Wasted <= Quality, Wasted <= GS - W, and IP >= 4.0 * GS |
| Aggregation.GroupOf | streamlit_app.py:108 | a record is in the group of (name, team) iff it is a start with that name and team |
| Aggregation.Insert | streamlit_app.py:108-117 | adding a start keeps the groups strictly key-sorted, adds its contribution to its own group (creating it if absent) and changes no other group |
| Aggregation.GroupBy | streamlit_app.py:108-117 | the groups are strictly sorted by (name, team), hence one per key |
| Aggregation.GroupByTotals | streamlit_app.py:108-124 | there is a group for a key iff some start has that key, and its totals are the totals of exactly those starts |
| Aggregation.Era | streamlit_app.py:126 | ERA is defined iff innings are nonzero, and ERA times innings equals 9 times earned runs |
| Aggregation.Whip | streamlit_app.py:127 | WHIP is defined iff innings are nonzero, and WHIP times innings equals hits plus walks |
| Aggregation.Qualified | streamlit_app.py:130 | a row is kept iff it has at least `min_starts` starts; kept rows are unchanged and stay key-sorted |
| Aggregation.Aggregate | app.py:128-152 | rows are strictly key-sorted and each has at least one and at least `min_starts` starts |
| Aggregation.AggregateSpec | app.py:128-152 | the table has a row for (name, team) iff that pair has at least one and at least `min_starts` starts, and the row holds the totals of exactly those starts with ERA and WHIP derived from them |
| Aggregation.ThresholdBoundary | app.py:151 | a pair with exactly `min_starts` starts is kept, one with `min_starts - 1` is dropped |
| Aggregation.RatiosDefined | app.py:149-150 | over collector output every row has IP >= 4.0 * GS > 0, so ERA and WHIP are defined; W + L <= GS and Wasted <= Quality <= GS |
| Aggregation.QsPct | streamlit_app.py:128 | QS% times GS is 100 times Quality; within [0, 100] whenever 0 <= Quality <= GS |
| Aggregation.WastedPct | streamlit_app.py:129 | Wasted% times Quality is 100 times Wasted when Quality > 0; with Quality = 0 it is exactly 0 when Wasted = 0 and undefined otherwise |
| Aggregation.StreamlitAggregate | streamlit_app.py:107-131 | the Streamlit table is app.py's table row for row, with QS% and Wasted% of each row |
| Aggregation.StreamlitRatesBounded | streamlit_app.py:128-129 | over collector output QS% and Wasted% are defined and in [0, 100], and Wasted% is 0 for a row without quality starts |
| Aggregation.RatesBounded | streamlit_app.py:128-129 | for 0 <= Wasted <= Quality <= GS, GS > 0: QS% and Wasted% lie in [0, 100] |
| Aggregation.TwoStartScenario | streamlit_app.py:108-130 | 6.0 IP/3 ER/ND and 7.0 IP/1 ER/W: with threshold 2 one row with GS 2, Quality 2, Wasted 1, ERA 36/13, Wasted% 50; with threshold 3 no row |
| WastedExamples.WastedStartsOf | app.py:158 | the selection holds exactly the wasted starts whose pitcher name matches, any team |
| WastedExamples.Earliest | app.py:158-160 | the chosen start is one of the candidates and no candidate has an earlier ISO date |
| WastedExamples.ChosenExample | app.py:157-160 | no start is chosen iff the name has no wasted start; otherwise a wasted start of that name with the least date |
| WastedExamples.DecisionText | app.py:161 | the decision text is never empty and equals the recorded decision when that is non-empty |
| WastedExamples.DecisionTextOfRecorded | app.py:161 | the 'ND' fallback never applies to a decision the collector records |
| WastedExamples.FormatExample | app.py:162 | the example is "<date> (IP:<ip>, ER:<er>, Dec:<W/L/ND>)" with the start's own innings, earned runs and decision, begins with the date and never equals the no-wasted-starts marker |
| WastedExamples.ExampleFor | app.py:156-164 | the example is the marker iff the name has no wasted start, and otherwise the formatted earliest wasted start |
| WastedExamples.AttachExamples | app.py:165 | every row keeps its values and gets the example of its name |
| WastedExamples.ExampleIgnoresTeam | app.py:158-165 | a row can show an example taken from the same-named pitcher's start for another team |
| StatsApi.InsertByWasted | app.py:185 | inserting into a list sorted by Wasted_Starts keeps it sorted and adds exactly that row |
| StatsApi.SortByWasted | app.py:185 | the output is a permutation of the input, non-increasing in Wasted_Starts |
| StatsApi.Table | app.py:183-191 | one output record per qualifying season-table row, in table order, holding exactly the output columns of that row and the example of its pitcher name |
| StatsApi.GetStats | app.py:178-193 | 404 iff the collector returns `None`; an escaping exception is a server error; otherwise the rows are a permutation of the qualifying rows, sorted by Wasted_Starts descending |
| StatsApi.GetStatsRows | app.py:183-191 | every returned row has at least `min_starts` starts, defined ERA and WHIP, W + L <= GS, Wasted <= Quality <= GS, and its name's example |

## Left out

- HTTP requests, `raise_for_status`, URL building and `timeout`s are modelled by the `Source` value. The schedule query is modelled, but the URL string is not.
- `time.sleep(0.02)` and `@st.cache_data` are left out. They affect pacing and memoisation, not results.
- The Streamlit UI (streamlit_app.py:133-356) is left out. It is presentation only: charts, tabs, search, per-player efficiency and rank, and team rollups.
- Flask routing and startup (app.py:168-181, 195-197) are left out. So is parsing the query string with `int(...)`, which raises on bad input before the pipeline runs. The `logging` name used at app.py:196 is never imported.
- static/script.js is left out. It is browser code that recomputes summary totals.
- Float rounding (`.round(2)`, `.round(1)`) and binary floating point are left out. Ratios are exact reals and innings exact tenths. Innings strings with more than one decimal digit are not modelled.
- `str(float)` in the example text is modelled as integer part, ".", tenths digit. This matches Python for innings of ordinary size.
- `league.lower()` is modelled on ASCII letters only. The only non-ASCII character that lower-cases to ASCII is the Kelvin sign, which becomes "k". No league name contains "k", so the sport id lookup agrees.
- pandas mechanics beyond group/sum semantics are left out: `reset_index`, `rename`, the left merge on identical keys, and `dropna` of NaN keys. Names and teams always have string defaults, so they are never NaN.
- The debug `print` lines are left out.
- A schedule date without a `date` field is left out: the date is always present in the model. In the source, such starts would get a `None` date, would not be counted by `GS=('game_date', 'count')`, and would sort last.
- A JSON value of the wrong shape, such as a non-object where an object is expected, is left out. Only absence, and conversion failure of numeric fields, are modelled.
- StatsApi.SortByWasted: the order among rows with equal Wasted_Starts is not fixed, because pandas' default sort is not stable. The contract states only sortedness and permutation.
- WastedExamples.Earliest: among wasted starts on the same date the source's choice is unspecified; the model takes the first in record order, and the contract states only that the date is least.
- StreamlitCollector.Collect: `None` does not say which cause produced it: unsupported year, failed schedule request, missing `gamePk`, or no qualifying start. The source does not distinguish these either.

## Findings

| source | as written | input that shows it | evidently intended | confidence | as-written member | corrected member |
|---|---|---|---|---|---|---|
| app.py:102 | the row dictionary reads `game_date`, which `get_game_by_game` in app.py never assigns; the resulting NameError is not a `RequestException`, so it escapes both handlers | one final game whose home starter threw 7.0 innings with well-formed stats (`AppCollector.GameDateCounterexample`); in general any season for which the corrected collector (`AppCollector.Collect`) returns records (`AppCollector.AsWrittenRaisesWhereCorrectedYields`) | bind `game_date = date_info.get('date')` per schedule date, as streamlit_app.py:37 does, so the collector returns the starts | high; not executed | AppCollector.CollectAsWritten | AppCollector.Collect |

The rest of the model, including `StatsApi.GetStats`, uses the corrected collector. With the code as written, `AppCollector.AsWrittenNeverYieldsRecords` shows that `get_stats` can only answer 404 or fail with an exception.

=== FILE: aggregation.dfy ===
/** `aggregate_pitcher_season_stats`: group the start records by
    (pitcher_name, team), total each group, derive the ratio columns and
    keep the groups with at least `min_starts` starts. pandas' `groupby`
    sorts its keys, so the rows come out in increasing key order. */
module Aggregation {
  import opened Wrappers
  import opened Text
  import opened Starts

  /** The group key (pitcher_name, team). */
  datatype Key = Key(name: string, team: string)

  function KeyOf(r: StartRecord): Key {
    Key(r.pitcherName, r.team)
  }

  /** Python's tuple order on (name, team). */
  predicate KeyLess(a: Key, b: Key) {
    LexLess(a.name, b.name) || (a.name == b.name && LexLess(a.team, b.team))
  }

  lemma KeyLessIrreflexive(a: Key)
    ensures !KeyLess(a, a)
  {
    LexIrreflexive(a.name);
    LexIrreflexive(a.team);
  }

  lemma KeyLessTransitive(a: Key, b: Key, c: Key)
    requires KeyLess(a, b) && KeyLess(b, c)
    ensures KeyLess(a, c)
  {
    if LexLess(a.name, b.name) && LexLess(b.name, c.name) {
      LexTransitive(a.name, b.name, c.name);
    } else if a.name == b.name && b.name == c.name {
      LexTransitive(a.team, b.team, c.team);
    }
  }

  lemma KeyLessTotal(a: Key, b: Key)
    ensures a == b || KeyLess(a, b) || KeyLess(b, a)
  {
    LexTotal(a.name, b.name);
    LexTotal(a.team, b.team);
  }

  /** The counting columns of one group: GS, IP (tenths), ER, H, BB, SO,
      Quality_Starts, Wasted_Starts, W and L. */
  datatype Totals = Totals(gs: int, ip: int, er: int, h: int, bb: int, so: int,
                           qs: int, ws: int, w: int, l: int)

  const Zero := Totals(0, 0, 0, 0, 0, 0, 0, 0, 0, 0)

  function Indicator(b: bool): int {
    if b then 1 else 0
  }

  /** The contribution of a single start to its group's totals. */
  function One(r: StartRecord): Totals {
    Totals(1, r.ip, r.er, r.h, r.bb, r.so, Indicator(r.qualityStart), Indicator(r.wastedStart),
           Indicator(r.decision == Win), Indicator(r.decision == Loss))
  }

  function Add(a: Totals, b: Totals): Totals {
    Totals(a.gs + b.gs, a.ip + b.ip, a.er + b.er, a.h + b.h, a.bb + b.bb, a.so + b.so,
           a.qs + b.qs, a.ws + b.ws, a.w + b.w, a.l + b.l)
  }

  /** The totals of a set of starts: the count and the column sums. */
  function Summary(rs: seq<StartRecord>): (t: Totals)
    ensures t.gs == |rs|
    ensures 0 <= t.qs <= t.gs && 0 <= t.ws <= t.gs
    ensures 0 <= t.w && 0 <= t.l && t.w + t.l <= t.gs
    decreases |rs|
  {
    if |rs| == 0 then Zero else Add(Summary(rs[..|rs| - 1]), One(rs[|rs| - 1]))
  }

  /** Over records the collector emits, wasted starts are quality starts
      without a win, and every start adds at least 4.0 innings. */
  lemma {:induction false} SummaryOfWellFormed(rs: seq<StartRecord>)
    requires forall x :: x in rs ==> WellFormed(x)
    ensures Summary(rs).ws <= Summary(rs).qs
    ensures Summary(rs).ws <= Summary(rs).gs - Summary(rs).w
    ensures Summary(rs).ip >= 40 * Summary(rs).gs
    decreases |rs|
  {
    if |rs| > 0 {
      assert rs[|rs| - 1] in rs;
      WastedImpliesQuality(rs[|rs| - 1]);
      assert forall x :: x in rs[..|rs| - 1] ==> x in rs;
      SummaryOfWellFormed(rs[..|rs| - 1]);
    }
  }

  /** The records of the group `k`, in their original order. */
  function GroupOf(rs: seq<StartRecord>, k: Key): (g: seq<StartRecord>)
    ensures forall x :: x in g <==> x in rs && KeyOf(x) == k
    decreases |rs|
  {
    if |rs| == 0 then []
    else
      var last := rs[|rs| - 1];
      var prefix := GroupOf(rs[..|rs| - 1], k);
      assert rs == rs[..|rs| - 1] + [last];
      if KeyOf(last) == k then prefix + [last] else prefix
  }

  datatype Group = Group(key: Key, totals: Totals)

  /** The totals stored under `k`, looking from the front. */
  function Lookup(groups: seq<Group>, k: Key): Option<Totals>
    decreases |groups|
  {
    if |groups| == 0 then None
    else if groups[0].key == k then Some(groups[0].totals)
    else Lookup(groups[1..], k)
  }

  predicate StrictlySorted(groups: seq<Group>) {
    forall i :: 0 <= i < |groups| - 1 ==> KeyLess(groups[i].key, groups[i + 1].key)
  }

  lemma {:induction false} AbsentBelowHead(groups: seq<Group>, k: Key)
    requires StrictlySorted(groups) && |groups| > 0 && KeyLess(k, groups[0].key)
    ensures Lookup(groups, k) == None
    decreases |groups|
  {
    KeyLessIrreflexive(k);
    if |groups| > 1 {
      KeyLessTransitive(k, groups[0].key, groups[1].key);
      AbsentBelowHead(groups[1..], k);
    }
  }

  /** Adds one start to the key-sorted groups: into its group when present,
      as a new group at its sorted position otherwise. */
  function Insert(groups: seq<Group>, r: StartRecord): (g: seq<Group>)
    requires StrictlySorted(groups)
    ensures StrictlySorted(g)
    ensures |g| > 0 && (g[0].key == KeyOf(r) || (|groups| > 0 && g[0].key == groups[0].key))
    ensures forall k ::
              Lookup(g, k) ==
              if k == KeyOf(r) then Some(Add(Lookup(groups, k).GetOr(Zero), One(r))) else Lookup(groups, k)
    decreases |groups|
  {
    var k := KeyOf(r);
    if |groups| == 0 then [Group(k, Add(Zero, One(r)))]
    else if groups[0].key == k then [Group(k, Add(groups[0].totals, One(r)))] + groups[1..]
    else if KeyLess(k, groups[0].key) then
      AbsentBelowHead(groups, k);
      [Group(k, Add(Zero, One(r)))] + groups
    else
      KeyLessTotal(k, groups[0].key);
      var tail := Insert(groups[1..], r);
      assert Lookup([groups[0]] + tail, k) == Lookup(tail, k);
      [groups[0]] + tail
  }

  /** The key-sorted groups of all records, folding from the front. */
  function GroupBy(rs: seq<StartRecord>): (g: seq<Group>)
    ensures StrictlySorted(g)
    decreases |rs|
  {
    if |rs| == 0 then [] else Insert(GroupBy(rs[..|rs| - 1]), rs[|rs| - 1])
  }

  /** Grouping is exact: there is a group for `k` iff some record has key
      `k`, and its totals are the totals of exactly those records. */
  lemma {:induction false} GroupByTotals(rs: seq<StartRecord>, k: Key)
    ensures Lookup(GroupBy(rs), k) == if GroupOf(rs, k) == [] then None else Some(Summary(GroupOf(rs, k)))
    decreases |rs|
  {
    if |rs| > 0 {
      var prefix := rs[..|rs| - 1];
      var last := rs[|rs| - 1];
      GroupByTotals(prefix, k);
      var g := GroupOf(prefix, k);
      if KeyOf(last) == k {
        assert GroupOf(rs, k) == g + [last];
        assert (g + [last])[..|g + [last]| - 1] == g;
      }
    }
  }

  /** One row of the season table. */
  datatype SeasonRow = SeasonRow(key: Key, totals: Totals, era: Option<real>, whip: Option<real>)

  /** ERA = ER / IP * 9, with IP in innings; `None` where the float
      division yields infinity or NaN (zero innings). */
  function Era(t: Totals): (r: Option<real>)
    ensures r.Some? <==> t.ip != 0
    ensures r.Some? ==> r.value * (t.ip as real / 10.0) == 9.0 * t.er as real
  {
    if t.ip == 0 then None else Some((90 * t.er) as real / t.ip as real)
  }

  /** WHIP = (H + BB) / IP, with IP in innings; `None` at zero innings. */
  function Whip(t: Totals): (r: Option<real>)
    ensures r.Some? <==> t.ip != 0
    ensures r.Some? ==> r.value * (t.ip as real / 10.0) == (t.h + t.bb) as real
  {
    if t.ip == 0 then None else Some((10 * (t.h + t.bb)) as real / t.ip as real)
  }

  function MakeRow(k: Key, t: Totals): SeasonRow {
    SeasonRow(k, t, Era(t), Whip(t))
  }

  function Rows(groups: seq<Group>): (rows: seq<SeasonRow>)
    ensures |rows| == |groups|
    ensures forall i :: 0 <= i < |rows| ==> rows[i] == MakeRow(groups[i].key, groups[i].totals)
    decreases |groups|
  {
    if |groups| == 0 then [] else [MakeRow(groups[0].key, groups[0].totals)] + Rows(groups[1..])
  }

  /** The row for `k`, looking from the front. */
  function RowFor(rows: seq<SeasonRow>, k: Key): Option<SeasonRow>
    decreases |rows|
  {
    if |rows| == 0 then None
    else if rows[0].key == k then Some(rows[0])
    else RowFor(rows[1..], k)
  }

  /** Rows in strictly increasing key order: so at most one row per key. */
  predicate RowsSorted(rows: seq<SeasonRow>) {
    forall i, j :: 0 <= i < j < |rows| ==> KeyLess(rows[i].key, rows[j].key)
  }

  /** `season_stats[season_stats['GS'] >= min_starts]`: the rows with at
      least `minStarts` starts, unchanged and in their original order. */
  function Qualified(rows: seq<SeasonRow>, minStarts: int): (r: seq<SeasonRow>)
    ensures forall x :: x in r <==> x in rows && x.totals.gs >= minStarts
    ensures RowsSorted(rows) ==> RowsSorted(r)
    decreases |rows|
  {
    if |rows| == 0 then []
    else
      var rest := Qualified(rows[1..], minStarts);
      assert RowsSorted(rows) ==> forall x :: x in rest ==> KeyLess(rows[0].key, x.key) by {
        if RowsSorted(rows) {
          forall x | x in rest
            ensures KeyLess(rows[0].key, x.key)
          {
            var j :| 0 <= j < |rows[1..]| && rows[1..][j] == x;
            assert rows[j + 1] == x;
          }
        }
      }
      if rows[0].totals.gs >= minStarts then [rows[0]] + rest else rest
  }

  lemma {:induction false} SortedGroupsPairwise(groups: seq<Group>)
    requires StrictlySorted(groups)
    ensures forall i, j :: 0 <= i < j < |groups| ==> KeyLess(groups[i].key, groups[j].key)
    decreases |groups|
  {
    if |groups| > 1 {
      SortedGroupsPairwise(groups[1..]);
      forall i, j | 0 <= i < j < |groups|
        ensures KeyLess(groups[i].key, groups[j].key)
      {
        if i > 0 {
          assert groups[i] == groups[1..][i - 1] && groups[j] == groups[1..][j - 1];
        } else if j > 1 {
          assert groups[1] == groups[1..][0] && groups[j] == groups[1..][j - 1];
          KeyLessTransitive(groups[0].key, groups[1].key, groups[j].key);
        }
      }
    }
  }

  lemma {:induction false} RowForOfRows(groups: seq<Group>, k: Key)
    ensures RowFor(Rows(groups), k) ==
      match Lookup(groups, k) case None => None case Some(t) => Some(MakeRow(k, t))
    decreases |groups|
  {
    if |groups| > 0 {
      assert Rows(groups)[1..] == Rows(groups[1..]);
      RowForOfRows(groups[1..], k);
    }
  }

  lemma {:induction false} RowForOfQualified(rows: seq<SeasonRow>, minStarts: int, k: Key)
    requires RowsSorted(rows)
    ensures RowFor(Qualified(rows, minStarts), k) ==
      if RowFor(rows, k).Some? && RowFor(rows, k).value.totals.gs >= minStarts then RowFor(rows, k) else None
    decreases |rows|
  {
    if |rows| > 0 {
      assert RowsSorted(rows[1..]) by {
        forall i, j | 0 <= i < j < |rows[1..]|
          ensures KeyLess(rows[1..][i].key, rows[1..][j].key)
        {
          assert rows[1..][i] == rows[i + 1] && rows[1..][j] == rows[j + 1];
        }
      }
      RowForOfQualified(rows[1..], minStarts, k);
      if rows[0].key == k {
        RowForAbsent(rows[1..], k, rows[0]);
        RowForAbsent(Qualified(rows[1..], minStarts), k, rows[0]);
      }
    }
  }

  /** A key no greater than the head of a sorted row list occurs after it
      at no position. */
  lemma {:induction false} RowForAbsent(rows: seq<SeasonRow>, k: Key, head: SeasonRow)
    requires head.key == k
    requires forall x :: x in rows ==> KeyLess(head.key, x.key)
    ensures RowFor(rows, k) == None
    decreases |rows|
  {
    KeyLessIrreflexive(k);
    if |rows| > 0 {
      assert rows[0] in rows;
      assert forall x :: x in rows[1..] ==> x in rows;
      RowForAbsent(rows[1..], k, head);
    }
  }

  /** The season table of app.py: grouped rows with ERA and WHIP, filtered
      by `minStarts`. Every row has at least one start and at least
      `minStarts`, and rows are in strictly increasing key order. */
  function Aggregate(rs: seq<StartRecord>, minStarts: int): (rows: seq<SeasonRow>)
    ensures RowsSorted(rows)
    ensures forall x :: x in rows ==> x.totals.gs >= 1 && x.totals.gs >= minStarts
  {
    var groups := GroupBy(rs);
    SortedGroupsPairwise(groups);
    var all := Rows(groups);
    assert forall x :: x in all ==> x.totals.gs >= 1 by {
      forall x | x in all
        ensures x.totals.gs >= 1
      {
        var i :| 0 <= i < |all| && all[i] == x;
        GroupByTotals(rs, groups[i].key);
        LookupAt(groups, i);
      }
    }
    Qualified(all, minStarts)
  }

  /** In sorted groups the lookup of a group's own key finds that group. */
  lemma {:induction false} LookupAt(groups: seq<Group>, i: nat)
    requires StrictlySorted(groups) && i < |groups|
    ensures Lookup(groups, groups[i].key) == Some(groups[i].totals)
    decreases i
  {
    if i > 0 {
      SortedGroupsPairwise(groups);
      KeyLessIrreflexive(groups[0].key);
      assert groups[0].key != groups[i].key;
      assert StrictlySorted(groups[1..]);
      LookupAt(groups[1..], i - 1);
    }
  }

  /** The season table is exactly characterised by the records: the table
      has a row for (name, team) iff that pair has at least one start and
      at least `minStarts` starts, and that row holds the totals of exactly
      its starts with ERA and WHIP derived from them. */
  lemma AggregateSpec(rs: seq<StartRecord>, minStarts: int, k: Key)
    ensures RowFor(Aggregate(rs, minStarts), k) ==
      var g := GroupOf(rs, k);
      if |g| > 0 && |g| >= minStarts then Some(MakeRow(k, Summary(g))) else None
  {
    var groups := GroupBy(rs);
    SortedGroupsPairwise(groups);
    GroupByTotals(rs, k);
    RowForOfRows(groups, k);
    RowForOfQualified(Rows(groups), minStarts, k);
  }

  /** A pair with exactly `minStarts` starts is kept; one fewer drops it. */
  lemma ThresholdBoundary(rs: seq<StartRecord>, minStarts: int, k: Key)
    requires |GroupOf(rs, k)| > 0
    ensures |GroupOf(rs, k)| == minStarts ==> RowFor(Aggregate(rs, minStarts), k).Some?
    ensures |GroupOf(rs, k)| == minStarts - 1 ==> RowFor(Aggregate(rs, minStarts), k).None?
  {
    AggregateSpec(rs, minStarts, k);
  }

  /** Over records the collector emits, every row's ERA and WHIP are
      defined, since each start contributes at least 4.0 innings. */
  lemma RatiosDefined(rs: seq<StartRecord>, minStarts: int)
    requires forall x :: x in rs ==> WellFormed(x)
    ensures forall row :: row in Aggregate(rs, minStarts) ==>
      && row.totals.ip >= 40 * row.totals.gs > 0
      && row.era.Some? && row.whip.Some?
      && 0 <= row.totals.ws <= row.totals.qs <= row.totals.gs
      && row.totals.w + row.totals.l <= row.totals.gs
      && row.totals.ws <= row.totals.gs - row.totals.w
  {
    forall row | row in Aggregate(rs, minStarts) {
      RowOfWellFormed(rs, minStarts, row);
    }
  }

  lemma RowOfWellFormed(rs: seq<StartRecord>, minStarts: int, row: SeasonRow)
    requires forall x :: x in rs ==> WellFormed(x)
    requires row in Aggregate(rs, minStarts)
    ensures row.totals.ip >= 40 * row.totals.gs > 0
    ensures row.era.Some? && row.whip.Some?
    ensures 0 <= row.totals.ws <= row.totals.qs <= row.totals.gs
    ensures row.totals.w + row.totals.l <= row.totals.gs
    ensures row.totals.ws <= row.totals.gs - row.totals.w
  {
    RowForMember(Aggregate(rs, minStarts), row);
    AggregateSpec(rs, minStarts, row.key);
    SummaryOfWellFormed(GroupOf(rs, row.key));
  }

  /** In sorted rows, each row is the row found for its own key. */
  lemma {:induction false} RowForMember(rows: seq<SeasonRow>, row: SeasonRow)
    requires RowsSorted(rows) && row in rows
    ensures RowFor(rows, row.key) == Some(row)
    decreases |rows|
  {
    if rows[0] != row {
      var j :| 0 <= j < |rows| && rows[j] == row;
      assert j > 0 && KeyLess(rows[0].key, row.key);
      KeyLessIrreflexive(row.key);
      assert row in rows[1..] by {
        assert rows[1..][j - 1] == row;
      }
      RowForMember(rows[1..], row);
    }
  }

  // Streamlit's extra columns.

  /** QS% = Quality_Starts / GS * 100. */
  function QsPct(t: Totals): (r: real)
    requires t.gs > 0
    ensures r * t.gs as real == 100.0 * t.qs as real
    ensures 0 <= t.qs <= t.gs ==> 0.0 <= r <= 100.0
  {
    PercentBounded(t.qs, t.gs);
    (100 * t.qs) as real / t.gs as real
  }

  /** Wasted% = Wasted_Starts / Quality_Starts * 100 with NaN (0/0)
      replaced by 0; a nonzero count over zero quality starts would be an
      infinity that `fillna` leaves, `None` here. */
  function WastedPct(t: Totals): (r: Option<real>)
    ensures t.qs != 0 ==> r.Some? && r.value * t.qs as real == 100.0 * t.ws as real
    ensures t.qs == 0 ==> (r.Some? <==> t.ws == 0)
    ensures r.Some? && t.qs == 0 ==> r.value == 0.0
  {
    if t.qs != 0 then Some((100 * t.ws) as real / t.qs as real)
    else if t.ws == 0 then Some(0.0)
    else None
  }

  datatype StreamlitRow = StreamlitRow(row: SeasonRow, qsPct: real, wastedPct: Option<real>)

  /** streamlit_app.py's table: app.py's rows with QS% and Wasted%. The
      source derives the percentages before filtering; each depends only on
      its own row, so the order of the two steps does not matter. */
  function StreamlitAggregate(rs: seq<StartRecord>, minStarts: int): (rows: seq<StreamlitRow>)
    ensures |rows| == |Aggregate(rs, minStarts)|
    ensures forall i :: 0 <= i < |rows| ==>
              && rows[i].row == Aggregate(rs, minStarts)[i]
              && rows[i].qsPct == QsPct(rows[i].row.totals)
              && rows[i].wastedPct == WastedPct(rows[i].row.totals)
  {
    var base := Aggregate(rs, minStarts);
    seq(|base|, i requires 0 <= i < |base| =>
      assert base[i] in base;
      StreamlitRow(base[i], QsPct(base[i].totals), WastedPct(base[i].totals)))
  }

  /** Over records the collector emits, QS% and Wasted% lie in [0, 100],
      and Wasted% is exactly 0 for a row without quality starts. */
  lemma StreamlitRatesBounded(rs: seq<StartRecord>, minStarts: int)
    requires forall x :: x in rs ==> WellFormed(x)
    ensures forall r :: r in StreamlitAggregate(rs, minStarts) ==>
      && 0.0 <= r.qsPct <= 100.0
      && r.wastedPct.Some?
      && 0.0 <= r.wastedPct.value <= 100.0
      && (r.row.totals.qs == 0 ==> r.wastedPct.value == 0.0)
  {
    var base := Aggregate(rs, minStarts);
    var rows := StreamlitAggregate(rs, minStarts);
    forall r | r in rows
      ensures 0.0 <= r.qsPct <= 100.0 && r.wastedPct.Some? && 0.0 <= r.wastedPct.value <= 100.0
    {
      var i :| 0 <= i < |rows| && rows[i] == r;
      assert base[i] in base;
      RowOfWellFormed(rs, minStarts, base[i]);
      RatesBounded(base[i].totals);
    }
  }

  lemma RatesBounded(t: Totals)
    requires 0 <= t.ws <= t.qs <= t.gs && t.gs > 0
    ensures 0.0 <= QsPct(t) <= 100.0
    ensures WastedPct(t).Some? && 0.0 <= WastedPct(t).value <= 100.0
  {
    if t.qs != 0 {
      PercentBounded(t.ws, t.qs);
    }
  }

  /** A count out of a positive total, as a percentage: it times the total
      is 100 times the count, and it lies in [0, 100] when the count does
      not exceed the total. */
  lemma PercentBounded(n: int, d: int)
    requires d > 0
    ensures ((100 * n) as real / d as real) * d as real == 100.0 * n as real
    ensures 0 <= n <= d ==> 0.0 <= (100 * n) as real / d as real <= 100.0
  {
    var q := (100 * n) as real / d as real;
    assert q * d as real == (100 * n) as real;
    if 0 <= n <= d && q > 100.0 {
      assert q * d as real > 100.0 * d as real;
    }
  }

  /** Two starts of one pitcher and team: 6.0 innings with 3 earned runs
      and no decision, then 7.0 innings with 1 earned run and a win. With
      `min_starts` 2 the row has GS 2, two quality starts, one wasted start,
      ERA 36/13 and Wasted% 50; with `min_starts` 3 there is no row. */
  lemma TwoStartScenario(a: StartRecord, b: StartRecord)
    requires KeyOf(a) == KeyOf(b) && WellFormed(a) && WellFormed(b)
    requires a.ip == 60 && a.er == 3 && a.decision == NoDecision
    requires b.ip == 70 && b.er == 1 && b.decision == Win
    ensures RowFor(Aggregate([a, b], 2), KeyOf(a)).Some?
    ensures var row := RowFor(Aggregate([a, b], 2), KeyOf(a)).value;
      && row.totals.gs == 2 && row.totals.qs == 2 && row.totals.ws == 1
      && row.totals.w == 1 && row.totals.l == 0
      && row.era == Some(36.0 / 13.0)
      && WastedPct(row.totals) == Some(50.0)
    ensures RowFor(Aggregate([a, b], 3), KeyOf(a)).None?
  {
    var t := TwoStartTotals(a, b);
    assert (90 * t.er) as real / t.ip as real == 36.0 / 13.0;
    AggregateSpec([a, b], 2, KeyOf(a));
    AggregateSpec([a, b], 3, KeyOf(a));
  }

  lemma TwoStartTotals(a: StartRecord, b: StartRecord) returns (t: Totals)
    requires KeyOf(a) == KeyOf(b) && WellFormed(a) && WellFormed(b)
    requires a.ip == 60 && a.er == 3 && a.decision == NoDecision
    requires b.ip == 70 && b.er == 1 && b.decision == Win
    ensures GroupOf([a, b], KeyOf(a)) == [a, b]
    ensures t == Summary([a, b])
    ensures t.gs == 2 && t.ip == 130 && t.er == 4 && t.qs == 2 && t.ws == 1 && t.w == 1 && t.l == 0
  {
    var rs := [a, b];
    assert rs[..1] == [a] && [a][..0] == [];
    assert GroupOf([a], KeyOf(a)) == [a];
    assert Summary([a]) == Add(Zero, One(a));
    t := Summary(rs);
  }
}

=== FILE: app_collector.dfy ===
/** `get_game_by_game` as written in app.py. Its two handlers catch only
    `requests.exceptions.RequestException`, so a failed boxscore request
    skips that game and a failed schedule request returns `None`, while a
    `ValueError` from a numeric conversion, a `KeyError` from a missing
    `gamePk`, or a `NameError` propagates out of the call. */
module AppCollector {
  import opened Wrappers
  import opened Feed
  import opened Starts
  import Streamlit = StreamlitCollector

  /** An exception that escapes the function. */
  datatype Failure = KeyError | ValueError | NameError

  /** What the name `game_date` refers to when a row is built. In app.py it
      is never assigned in that function (`Unbound`); the copy in
      streamlit_app.py binds it to the enclosing schedule date
      (`FromSchedule`). */
  datatype DateBinding = Unbound | FromSchedule

  /** One side's outcome under app.py's handlers. The row's dictionary is
      evaluated key by key, so `game_date` is looked up before `hits`. */
  function SideStep(o: SideResult, b: DateBinding): (r: Result<Option<StartRecord>, Failure>)
    ensures b == FromSchedule && o.Emitted? ==> r == Success(Some(o.rec))
    ensures b == Unbound ==> (r.Success? ==> r.value.None?)
    ensures o.Skipped? <==> r == Success(None)
    ensures o.Raised? ==> r == Failure(if b == Unbound && o.stage == AtCounts then NameError else ValueError)
    ensures r.Failure? ==> r.error != KeyError
  {
    match o
    case Skipped => Success(None)
    case Raised(stage) => Failure(if b == Unbound && stage == AtCounts then NameError else ValueError)
    case Emitted(rec) => if b == Unbound then Failure(NameError) else Success(Some(rec))
  }

  function SidesStarts(box: Boxscore, sides: seq<TeamSide>, pk: int, date: string, b: DateBinding)
    : (r: Result<seq<StartRecord>, Failure>)
    ensures r.Success? ==> |r.value| <= |sides|
    ensures r.Failure? ==> r.error != KeyError
    ensures r.Success? <==> forall i :: 0 <= i < |sides| ==> SideStep(SideOutcome(box, sides[i], pk, date), b).Success?
    decreases |sides|
  {
    if |sides| == 0 then Success([])
    else
      assert forall i :: 0 <= i < |sides| - 1 ==> sides[1..][i] == sides[i + 1];
      var here :- SideStep(SideOutcome(box, sides[0], pk, date), b);
      var rest :- SidesStarts(box, sides[1..], pk, date, b);
      Success(match here case None => rest case Some(rec) => [rec] + rest)
  }

  /** The loop over one date's games. A boxscore request that raises a
      `RequestException` skips that game; a final game without `gamePk`
      raises `KeyError`; a side's exception escapes. */
  function GamesStarts(games: seq<Game>, date: string, fetch: int -> Option<Boxscore>, b: DateBinding)
    : (r: Result<seq<StartRecord>, Failure>)
    ensures r.Success? ==> GamesHavePks(games)
    ensures r.Failure? && r.error == KeyError ==> !GamesHavePks(games)
    decreases |games|
  {
    if |games| == 0 then Success([])
    else
      var g := games[0];
      Streamlit.GamesHavePksCons(games);
      if g.detailedState != Some("Final") then GamesStarts(games[1..], date, fetch, b)
      else match g.gamePk
        case None => Failure(KeyError)
        case Some(pk) =>
          var here :- match fetch(pk)
                      case None => Success([])
                      case Some(box) => SidesStarts(box, Sides(box), pk, date, b);
          var rest :- GamesStarts(games[1..], date, fetch, b);
          Success(here + rest)
  }

  /** The loop over the schedule's dates, in order. */
  function DatesStarts(dates: seq<ScheduleDate>, fetch: int -> Option<Boxscore>, b: DateBinding)
    : (r: Result<seq<StartRecord>, Failure>)
    ensures r.Success? ==> DatesHavePks(dates)
    ensures r.Failure? && r.error == KeyError ==> !DatesHavePks(dates)
    decreases |dates|
  {
    if |dates| == 0 then Success([])
    else
      Streamlit.DatesHavePksCons(dates);
      var here :- GamesStarts(dates[0].games, dates[0].date, fetch, b);
      var rest :- DatesStarts(dates[1..], fetch, b);
      Success(here + rest)
  }

  function CollectWith(b: DateBinding, year: int, league: string, src: Source)
    : (r: Result<Option<seq<StartRecord>>, Failure>)
    ensures year !in {2023, 2024, 2025} ==> r == Success(None)
    ensures QueryFor(year, league).Some? && src.schedule(QueryFor(year, league).value).None? ==> r == Success(None)
    ensures QueryFor(year, league).Some? && src.schedule(QueryFor(year, league).value).Some? ==>
      var ds := DatesStarts(src.schedule(QueryFor(year, league).value).value.dates, src.boxscore, b);
      && (ds.Success? ==> r.Success?)
      && (ds == Success([]) ==> r == Success(None))
    ensures r.Success? && r.value.Some? ==> |r.value.value| > 0
  {
    match QueryFor(year, league)
    case None => Success(None)
    case Some(q) =>
      match src.schedule(q)
      case None => Success(None)
      case Some(sched) =>
        match DatesStarts(sched.dates, src.boxscore, b)
        case Failure(e) => Failure(e)
        case Success(records) => Success(if |records| == 0 then None else Some(records))
  }

  /** An exception escaping the schedule loop escapes the collector. */
  lemma CollectRaisesWhatTheLoopRaises(b: DateBinding, year: int, league: string, src: Source)
    requires QueryFor(year, league).Some? && src.schedule(QueryFor(year, league).value).Some?
    requires DatesStarts(src.schedule(QueryFor(year, league).value).value.dates, src.boxscore, b).Failure?
    ensures CollectWith(b, year, league, src) ==
      Failure(DatesStarts(src.schedule(QueryFor(year, league).value).value.dates, src.boxscore, b).error)
  {
  }

  /** app.py's collector with `game_date` taken from the schedule date. */
  function Collect(year: int, league: string, src: Source): (r: Result<Option<seq<StartRecord>>, Failure>)
    ensures year !in {2023, 2024, 2025} ==> r == Success(None)
    ensures QueryFor(year, league).Some? && src.schedule(QueryFor(year, league).value).None? ==> r == Success(None)
    ensures QueryFor(year, league).Some? && src.schedule(QueryFor(year, league).value).Some? ==>
      var ds := DatesStarts(src.schedule(QueryFor(year, league).value).value.dates, src.boxscore, FromSchedule);
      && (ds.Success? ==> r.Success?)
      && (ds == Success([]) ==> r == Success(None))
    ensures r.Success? && r.value.Some? ==> |r.value.value| > 0
  {
    CollectWith(FromSchedule, year, league, src)
  }

  /** app.py's collector exactly as written. */
  function CollectAsWritten(year: int, league: string, src: Source): (r: Result<Option<seq<StartRecord>>, Failure>)
    ensures year !in {2023, 2024, 2025} ==> r == Success(None)
    ensures QueryFor(year, league).Some? && src.schedule(QueryFor(year, league).value).None? ==> r == Success(None)
    ensures QueryFor(year, league).Some? && src.schedule(QueryFor(year, league).value).Some? ==>
      var ds := DatesStarts(src.schedule(QueryFor(year, league).value).value.dates, src.boxscore, Unbound);
      && (ds.Success? ==> r.Success?)
      && (ds == Success([]) ==> r == Success(None))
  {
    CollectWith(Unbound, year, league, src)
  }

  /** A `RequestException` on a final game's boxscore skips that game and
      nothing else. */
  lemma FailedBoxscoreSkipsOnlyThatGame(g: Game, games: seq<Game>, date: string,
                                        fetch: int -> Option<Boxscore>, b: DateBinding)
    requires g.gamePk.Some? && fetch(g.gamePk.value).None?
    ensures GamesStarts([g] + games, date, fetch, b) == GamesStarts(games, date, fetch, b)
  {
    assert ([g] + games)[1..] == games;
    if GamesStarts(games, date, fetch, b).Success? {
      var rest := GamesStarts(games, date, fetch, b).value;
      assert [] + rest == rest;
    }
  }

  /** The first final game without a `gamePk` raises `KeyError`, unless a
      game before it has already raised. */
  lemma {:induction false} MissingPkRaisesKeyError(games: seq<Game>, i: nat, date: string,
                                                   fetch: int -> Option<Boxscore>, b: DateBinding)
    requires i < |games| && games[i].detailedState == Some("Final") && games[i].gamePk.None?
    requires GamesStarts(games[..i], date, fetch, b).Success?
    ensures GamesStarts(games, date, fetch, b) == Failure(KeyError)
    decreases i
  {
    if i > 0 {
      assert games[..i][1..] == games[1..][..i - 1];
      assert games[..i][0] == games[0];
      MissingPkRaisesKeyError(games[1..], i - 1, date, fetch, b);
    }
  }

  /** An exception from a side of a fetched final game escapes the games
      loop, unless a game before it has already raised. */
  lemma {:induction false} SideFailureEscapes(games: seq<Game>, i: nat, date: string,
                                              fetch: int -> Option<Boxscore>, b: DateBinding, e: Failure)
    requires i < |games| && games[i].detailedState == Some("Final") && games[i].gamePk.Some?
    requires fetch(games[i].gamePk.value).Some?
    requires var box := fetch(games[i].gamePk.value).value;
      SidesStarts(box, Sides(box), games[i].gamePk.value, date, b) == Failure(e)
    requires GamesStarts(games[..i], date, fetch, b).Success?
    ensures GamesStarts(games, date, fetch, b) == Failure(e)
    decreases i
  {
    if i > 0 {
      assert games[..i][1..] == games[1..][..i - 1];
      assert games[..i][0] == games[0];
      SideFailureEscapes(games[1..], i - 1, date, fetch, b, e);
    }
  }

  /** An exception inside one date's games escapes the dates loop, unless
      an earlier date has already raised. */
  lemma {:induction false} DateFailureEscapes(dates: seq<ScheduleDate>, i: nat,
                                              fetch: int -> Option<Boxscore>, b: DateBinding, e: Failure)
    requires i < |dates| && GamesStarts(dates[i].games, dates[i].date, fetch, b) == Failure(e)
    requires DatesStarts(dates[..i], fetch, b).Success?
    ensures DatesStarts(dates, fetch, b) == Failure(e)
    decreases i
  {
    if i > 0 {
      assert dates[..i][1..] == dates[1..][..i - 1];
      assert dates[..i][0] == dates[0];
      DateFailureEscapes(dates[1..], i - 1, fetch, b, e);
    }
  }

  /** Every fetched final game of `games` has sides that all return
      normally. */
  predicate SidesReturn(games: seq<Game>, date: string, fetch: int -> Option<Boxscore>, b: DateBinding) {
    forall g :: g in games && g.detailedState == Some("Final") && g.gamePk.Some? && fetch(g.gamePk.value).Some? ==>
      SidesStarts(fetch(g.gamePk.value).value, Sides(fetch(g.gamePk.value).value), g.gamePk.value, date, b).Success?
  }

  predicate DatesSidesReturn(dates: seq<ScheduleDate>, fetch: int -> Option<Boxscore>, b: DateBinding) {
    forall d :: d in dates ==> SidesReturn(d.games, d.date, fetch, b)
  }

  lemma SidesReturnCons(games: seq<Game>, date: string, fetch: int -> Option<Boxscore>, b: DateBinding)
    requires |games| > 0
    ensures SidesReturn(games, date, fetch, b) <==>
      && SidesReturn(games[1..], date, fetch, b)
      && (games[0].detailedState == Some("Final") && games[0].gamePk.Some? && fetch(games[0].gamePk.value).Some? ==>
            var box := fetch(games[0].gamePk.value).value;
            SidesStarts(box, Sides(box), games[0].gamePk.value, date, b).Success?)
  {
    assert games == [games[0]] + games[1..];
  }

  lemma DatesSidesReturnCons(dates: seq<ScheduleDate>, fetch: int -> Option<Boxscore>, b: DateBinding)
    requires |dates| > 0
    ensures DatesSidesReturn(dates, fetch, b) <==>
      SidesReturn(dates[0].games, dates[0].date, fetch, b) && DatesSidesReturn(dates[1..], fetch, b)
  {
    assert dates == [dates[0]] + dates[1..];
  }

  /** The games loop returns normally exactly when every final game has its
      `gamePk` and the sides of every fetched final game return normally. */
  lemma {:induction false} GamesSucceed(games: seq<Game>, date: string, fetch: int -> Option<Boxscore>, b: DateBinding)
    ensures GamesStarts(games, date, fetch, b).Success? <==>
      GamesHavePks(games) && SidesReturn(games, date, fetch, b)
    decreases |games|
  {
    if |games| > 0 {
      Streamlit.GamesHavePksCons(games);
      SidesReturnCons(games, date, fetch, b);
      GamesSucceed(games[1..], date, fetch, b);
    }
  }

  /** The dates loop returns normally exactly when every date's games loop
      would. */
  lemma {:induction false} DatesSucceed(dates: seq<ScheduleDate>, fetch: int -> Option<Boxscore>, b: DateBinding)
    ensures DatesStarts(dates, fetch, b).Success? <==>
      DatesHavePks(dates) && DatesSidesReturn(dates, fetch, b)
    decreases |dates|
  {
    if |dates| > 0 {
      Streamlit.DatesHavePksCons(dates);
      DatesSidesReturnCons(dates, fetch, b);
      GamesSucceed(dates[0].games, dates[0].date, fetch, b);
      DatesSucceed(dates[1..], fetch, b);
    }
  }

  // Agreement with the Streamlit copy: whenever app.py's collector returns
  // normally, it returns what streamlit_app.py's returns.

  lemma {:induction false} SidesAgree(box: Boxscore, sides: seq<TeamSide>, pk: int, date: string)
    requires SidesStarts(box, sides, pk, date, FromSchedule).Success?
    ensures SidesStarts(box, sides, pk, date, FromSchedule).value == Streamlit.SidesStarts(box, sides, pk, date)
    decreases |sides|
  {
    if |sides| > 0 {
      SidesAgree(box, sides[1..], pk, date);
    }
  }

  lemma {:induction false} GamesAgree(games: seq<Game>, date: string, fetch: int -> Option<Boxscore>)
    requires GamesStarts(games, date, fetch, FromSchedule).Success?
    ensures Streamlit.GamesStarts(games, date, fetch) == Some(GamesStarts(games, date, fetch, FromSchedule).value)
    decreases |games|
  {
    if |games| > 0 {
      GamesAgree(games[1..], date, fetch);
      var g := games[0];
      if g.detailedState == Some("Final") && g.gamePk.Some? {
        var pk := g.gamePk.value;
        if fetch(pk).Some? {
          var box := fetch(pk).value;
          SidesAgree(box, Sides(box), pk, date);
        }
      }
    }
  }

  lemma {:induction false} DatesAgree(dates: seq<ScheduleDate>, fetch: int -> Option<Boxscore>)
    requires DatesStarts(dates, fetch, FromSchedule).Success?
    ensures Streamlit.DatesStarts(dates, fetch) == Some(DatesStarts(dates, fetch, FromSchedule).value)
    decreases |dates|
  {
    if |dates| > 0 {
      GamesAgree(dates[0].games, dates[0].date, fetch);
      DatesAgree(dates[1..], fetch);
    }
  }

  /** The two copies classify identically: when app.py's collector returns
      normally its result is the Streamlit collector's. */
  lemma CollectAgreesWithStreamlit(year: int, league: string, src: Source)
    requires Collect(year, league, src).Success?
    ensures Streamlit.Collect(year, league, src) == Collect(year, league, src).value
  {
    var q := QueryFor(year, league);
    if q.Some? && src.schedule(q.value).Some? {
      DatesAgree(src.schedule(q.value).value.dates, src.boxscore);
    }
  }

  /** When every final game of the fetched schedule has its `gamePk` and no
      side of a fetched final game raises, app.py's collector returns
      normally, with the Streamlit collector's result. */
  lemma CollectSucceeds(year: int, league: string, src: Source)
    requires QueryFor(year, league).Some? && src.schedule(QueryFor(year, league).value).Some?
    requires DatesHavePks(src.schedule(QueryFor(year, league).value).value.dates)
    requires DatesSidesReturn(src.schedule(QueryFor(year, league).value).value.dates, src.boxscore, FromSchedule)
    ensures Collect(year, league, src) == Success(Streamlit.Collect(year, league, src))
  {
    DatesSucceed(src.schedule(QueryFor(year, league).value).value.dates, src.boxscore, FromSchedule);
    CollectAgreesWithStreamlit(year, league, src);
  }

  /** app.py's collector returns normally exactly when the year is
      unsupported, the schedule request fails, or every final game has its
      `gamePk` and no side of a fetched final game raises. */
  lemma CollectReturnsExactly(year: int, league: string, src: Source)
    ensures Collect(year, league, src).Success? <==>
      || QueryFor(year, league).None?
      || src.schedule(QueryFor(year, league).value).None?
      || (&& DatesHavePks(src.schedule(QueryFor(year, league).value).value.dates)
          && DatesSidesReturn(src.schedule(QueryFor(year, league).value).value.dates, src.boxscore, FromSchedule))
  {
    var q := QueryFor(year, league);
    if q.Some? && src.schedule(q.value).Some? {
      var dates := src.schedule(q.value).value.dates;
      DatesSucceed(dates, src.boxscore, FromSchedule);
      if DatesStarts(dates, src.boxscore, FromSchedule).Failure? {
        CollectRaisesWhatTheLoopRaises(FromSchedule, year, league, src);
      }
    }
  }

  /** Every record app.py's collector returns has at least 4.0 innings and
      consistent quality/wasted flags. */
  lemma CollectWellFormed(year: int, league: string, src: Source)
    requires Collect(year, league, src).Success? && Collect(year, league, src).value.Some?
    ensures forall x :: x in Collect(year, league, src).value.value ==> WellFormed(x)
  {
    CollectAgreesWithStreamlit(year, league, src);
  }

  // The as-written defect: with `game_date` unbound, the first start that
  // passes the 4.0-innings filter raises NameError, which no handler catches.

  lemma {:induction false} SidesAsWritten(box: Boxscore, sides: seq<TeamSide>, pk: int, date: string)
    requires SidesStarts(box, sides, pk, date, FromSchedule).Success?
    ensures SidesStarts(box, sides, pk, date, Unbound) ==
      if SidesStarts(box, sides, pk, date, FromSchedule).value == [] then Success([]) else Failure(NameError)
    decreases |sides|
  {
    if |sides| > 0 {
      SidesAsWritten(box, sides[1..], pk, date);
    }
  }

  lemma {:induction false} GamesAsWritten(games: seq<Game>, date: string, fetch: int -> Option<Boxscore>)
    requires GamesStarts(games, date, fetch, FromSchedule).Success?
    ensures GamesStarts(games, date, fetch, Unbound) ==
      if GamesStarts(games, date, fetch, FromSchedule).value == [] then Success([]) else Failure(NameError)
    decreases |games|
  {
    if |games| > 0 {
      GamesAsWritten(games[1..], date, fetch);
      var g := games[0];
      if g.detailedState == Some("Final") && g.gamePk.Some? {
        var pk := g.gamePk.value;
        if fetch(pk).Some? {
          var box := fetch(pk).value;
          SidesAsWritten(box, Sides(box), pk, date);
        }
      }
    }
  }

  lemma {:induction false} DatesAsWritten(dates: seq<ScheduleDate>, fetch: int -> Option<Boxscore>)
    requires DatesStarts(dates, fetch, FromSchedule).Success?
    ensures DatesStarts(dates, fetch, Unbound) ==
      if DatesStarts(dates, fetch, FromSchedule).value == [] then Success([]) else Failure(NameError)
    decreases |dates|
  {
    if |dates| > 0 {
      GamesAsWritten(dates[0].games, dates[0].date, fetch);
      DatesAsWritten(dates[1..], fetch);
    }
  }

  /** Wherever the corrected collector returns records, the code as written
      raises NameError instead. */
  lemma AsWrittenRaisesWhereCorrectedYields(year: int, league: string, src: Source)
    requires Collect(year, league, src).Success? && Collect(year, league, src).value.Some?
    ensures CollectAsWritten(year, league, src) == Failure(NameError)
  {
    var q := QueryFor(year, league).value;
    DatesAsWritten(src.schedule(q).value.dates, src.boxscore);
  }

  lemma {:induction false} SidesAsWrittenEmpty(box: Boxscore, sides: seq<TeamSide>, pk: int, date: string)
    requires SidesStarts(box, sides, pk, date, Unbound).Success?
    ensures SidesStarts(box, sides, pk, date, Unbound).value == []
    decreases |sides|
  {
    if |sides| > 0 {
      SidesAsWrittenEmpty(box, sides[1..], pk, date);
    }
  }

  lemma {:induction false} GamesAsWrittenEmpty(games: seq<Game>, date: string, fetch: int -> Option<Boxscore>)
    requires GamesStarts(games, date, fetch, Unbound).Success?
    ensures GamesStarts(games, date, fetch, Unbound).value == []
    decreases |games|
  {
    if |games| > 0 {
      GamesAsWrittenEmpty(games[1..], date, fetch);
      var g := games[0];
      if g.detailedState == Some("Final") && g.gamePk.Some? && fetch(g.gamePk.value).Some? {
        var box := fetch(g.gamePk.value).value;
        SidesAsWrittenEmpty(box, Sides(box), g.gamePk.value, date);
      }
    }
  }

  lemma {:induction false} DatesAsWrittenEmpty(dates: seq<ScheduleDate>, fetch: int -> Option<Boxscore>)
    requires DatesStarts(dates, fetch, Unbound).Success?
    ensures DatesStarts(dates, fetch, Unbound).value == []
    decreases |dates|
  {
    if |dates| > 0 {
      GamesAsWrittenEmpty(dates[0].games, dates[0].date, fetch);
      DatesAsWrittenEmpty(dates[1..], fetch);
    }
  }

  /** As written, app.py's collector never returns any record: it either
      returns `None` or raises. */
  lemma AsWrittenNeverYieldsRecords(year: int, league: string, src: Source)
    ensures CollectAsWritten(year, league, src).Success? ==> CollectAsWritten(year, league, src).value.None?
  {
    var q := QueryFor(year, league);
    if q.Some? && src.schedule(q.value).Some? && DatesStarts(src.schedule(q.value).value.dates, src.boxscore, Unbound).Success? {
      DatesAsWrittenEmpty(src.schedule(q.value).value.dates, src.boxscore);
    }
  }

  /** A concrete season: one final game whose home starter threw 7.0
      innings. The corrected collector returns that start; the code as
      written raises NameError. */
  lemma GameDateCounterexample()
    ensures
      var src := Source(q => Some(OneGameSchedule()), OneStartFetch);
      && CollectAsWritten(2024, "mlb", src) == Failure(NameError)
      && Collect(2024, "mlb", src) == Success(Some([OneStartRecord()]))
  {
    OneGameDates();
    assert QueryFor(2024, "mlb").Some?;
  }

  /** The dates of the one-game season: its single start as corrected,
      NameError as written. */
  lemma OneGameDates()
    ensures DatesStarts(OneGameSchedule().dates, OneStartFetch, FromSchedule) == Success([OneStartRecord()])
    ensures DatesStarts(OneGameSchedule().dates, OneStartFetch, Unbound) == Failure(NameError)
  {
    var box := OneStartBox();
    var dates := OneGameSchedule().dates;
    var games := dates[0].games;
    var rec := OneStartRecord();
    OneStartSides();
    assert OneStartFetch(1) == Some(box) && games[0] == Game(Some(1), Some("Final")) && games[1..] == [];
    assert GamesStarts(games[1..], "2024-04-01", OneStartFetch, FromSchedule) == Success([]);
    assert GamesStarts(games, "2024-04-01", OneStartFetch, FromSchedule) == Success([rec] + []);
    assert [rec] + [] == [rec];
    assert GamesStarts(games, "2024-04-01", OneStartFetch, Unbound) == Failure(NameError);
    assert dates[1..] == [];
    assert DatesStarts(dates, OneStartFetch, FromSchedule) == Success([rec] + []);
  }

  function OneStartFetch(pk: int): Option<Boxscore> {
    Some(OneStartBox())
  }

  /** The sides of the one-game season: the home start is emitted and the
      away side has no pitcher. */
  lemma OneStartSides()
    ensures SidesStarts(OneStartBox(), Sides(OneStartBox()), 1, "2024-04-01", FromSchedule) == Success([OneStartRecord()])
    ensures SidesStarts(OneStartBox(), Sides(OneStartBox()), 1, "2024-04-01", Unbound) == Failure(NameError)
  {
    var box := OneStartBox();
    var rec := OneStartRecord();
    assert StarterStats(box.home).Some?;
    assert SideOutcome(box, box.home, 1, "2024-04-01") == Emitted(rec);
    assert SideOutcome(box, box.away, 1, "2024-04-01") == Skipped;
    var sides := Sides(box);
    assert sides[0] == box.home && sides[1..] == [box.away] && [box.away][1..] == [];
    assert SidesStarts(box, sides[1..], 1, "2024-04-01", FromSchedule) == Success([]);
    assert SidesStarts(box, sides, 1, "2024-04-01", FromSchedule) == Success([rec] + []);
    assert [rec] + [] == [rec];
  }

  function OneStartBox(): Boxscore {
    var stats := PitchingStats(Value(70), Value(2), Value(5), Value(1), Value(6));
    var home := TeamSide(Some("ATL"), [7], map[7 := PlayerInfo(Some("A"), Some(stats))]);
    Boxscore(home, TeamSide(None, [], map[]), None, None)
  }

  function OneGameSchedule(): Schedule {
    Schedule([ScheduleDate("2024-04-01", [Game(Some(1), Some("Final"))])])
  }

  function OneStartRecord(): StartRecord {
    StartRecord("A", "ATL", "2024-04-01", 1, 70, 2, 5, 1, 6, NoDecision, true, true)
  }
}

=== FILE: feed.dfy ===
/** The slice of the stats API's JSON that the collector navigates, as typed
    values. A JSON field that is absent and read with a default is supplied
    here already holding that default; `Option` marks the lookups whose
    absence changes control flow. */
module Feed {
  import opened Wrappers

  /** A numeric field after Python's `int(...)` / `float(...)` conversion:
      `Malformed` is a value that conversion rejects by raising. */
  datatype Num = Value(v: int) | Malformed

  /** `stats.pitching` of one player in a boxscore. `inningsPitched` holds
      integer tenths of the decimal string as written ("6.1" is 61). */
  datatype PitchingStats = PitchingStats(
    inningsPitched: Num,
    earnedRuns: Num,
    hits: Num,
    baseOnBalls: Num,
    strikeOuts: Num)

  /** `players["ID<id>"]`: `person.fullName` and the pitching stats, where
      `None` is an absent or empty `stats.pitching` object. */
  datatype PlayerInfo = PlayerInfo(fullName: Option<string>, pitching: Option<PitchingStats>)

  /** `teams.home` or `teams.away`: the team abbreviation, the pitchers in
      order of appearance, and the players keyed by their numeric id (the
      source's `"ID<id>"` key is injective in the id). An absent side is a
      side with no pitchers. */
  datatype TeamSide = TeamSide(
    abbreviation: Option<string>,
    pitchers: seq<int>,
    players: map<int, PlayerInfo>)

  /** A game's boxscore: both sides and the ids of the pitchers of record. */
  datatype Boxscore = Boxscore(
    home: TeamSide,
    away: TeamSide,
    winner: Option<int>,
    loser: Option<int>)

  /** One scheduled game: `gamePk` (read with `game['gamePk']`, so absence
      raises `KeyError`) and `status.detailedState`. */
  datatype Game = Game(gamePk: Option<int>, detailedState: Option<string>)

  datatype ScheduleDate = ScheduleDate(date: string, games: seq<Game>)

  datatype Schedule = Schedule(dates: seq<ScheduleDate>)

  /** The parameters of the schedule request: sport id and date window. */
  datatype SeasonQuery = SeasonQuery(sportId: int, startDate: string, endDate: string)

  /** The remote API, as data. `schedule(q)` is `None` when the request
      raises a `RequestException` or returns a non-success status;
      `boxscore(pk)` is `None` when that game's request or JSON decoding
      raises a `RequestException`. */
  datatype Source = Source(
    schedule: SeasonQuery -> Option<Schedule>,
    boxscore: int -> Option<Boxscore>)
}

=== FILE: starts.dfy ===
/** Season resolution and the classification of one start, shared by both
    copies of `get_game_by_game` (streamlit_app.py and app.py). */
module Starts {
  import opened Wrappers
  import opened Text
  import opened Feed

  /** `SPORT_IDS`: league name to the API's sport id. */
  const SportIds: map<string, int> :=
    map["mlb" := 1, "triple-a" := 11, "double-a" := 12, "high-a" := 13, "low-a" := 14]

  /** `SPORT_IDS.get(league.lower(), 1)`. */
  function SportId(league: string): (r: int)
    ensures r in {1, 11, 12, 13, 14}
    ensures ToLower(league) in SportIds ==> r == SportIds[ToLower(league)]
    ensures ToLower(league) !in SportIds ==> r == 1
  {
    var key := ToLower(league);
    if key in SportIds then SportIds[key] else 1
  }

  /** The lookup ignores letter case: "Triple-A" is the triple-a league. */
  lemma SportIdIgnoresCase()
    ensures SportId("Triple-A") == 11
    ensures SportId("LOW-A") == 14
  {
    assert ToLower("Triple-A") == "triple-a";
    assert ToLower("LOW-A") == "low-a";
  }

  /** The regular-season window for a supported year, `None` otherwise. */
  function SeasonWindow(year: int): (r: Option<(string, string)>)
    ensures r.Some? <==> year in {2023, 2024, 2025}
  {
    if year == 2025 then Some(("2025-03-27", "2025-09-29"))
    else if year == 2024 then Some(("2024-03-28", "2024-09-29"))
    else if year == 2023 then Some(("2023-03-30", "2023-10-01"))
    else None
  }

  /** Every supported window is a pair of ISO dates inside its own year,
      the start strictly before the end. */
  lemma SeasonWindowWellFormed(year: int)
    requires SeasonWindow(year).Some?
    ensures IsIsoDateIn(SeasonWindow(year).value.0, year)
    ensures IsIsoDateIn(SeasonWindow(year).value.1, year)
    ensures LexLess(SeasonWindow(year).value.0, SeasonWindow(year).value.1)
  {
    if year == 2025 {
      WindowWellFormed("2025-03-27", "2025-09-29", 2025, 6);
    } else if year == 2024 {
      WindowWellFormed("2024-03-28", "2024-09-29", 2024, 6);
    } else {
      WindowWellFormed("2023-03-30", "2023-10-01", 2023, 5);
    }
  }

  lemma WindowWellFormed(s: string, e: string, year: int, k: nat)
    requires 1000 <= year < 10000
    requires |s| == 10 && |e| == 10 && s[4] == e[4] == '-' && s[7] == e[7] == '-'
    requires forall i :: 0 <= i < 10 && i != 4 && i != 7 ==> '0' <= s[i] <= '9' && '0' <= e[i] <= '9'
    requires s[..4] == e[..4] ==
      [DigitChar(year / 1000), DigitChar(year / 100 % 10), DigitChar(year / 10 % 10), DigitChar(year % 10)]
    requires k < 10 && s[..k] == e[..k] && s[k] < e[k]
    ensures IsIsoDateIn(s, year) && IsIsoDateIn(e, year) && LexLess(s, e)
  {
    NatToStringFourDigits(year);
    LexLessAt(s, e, k);
  }

  /** `s` has the shape `YYYY-MM-DD` and its year part is `year`. */
  predicate IsIsoDateIn(s: string, year: int) {
    && |s| == 10
    && s[4] == '-' && s[7] == '-'
    && (forall i :: 0 <= i < 10 && i != 4 && i != 7 ==> '0' <= s[i] <= '9')
    && s[..4] == IntToString(year)
  }

  /** The schedule request a call `get_game_by_game(year, league)` makes,
      or `None` when it returns before making any request. */
  function QueryFor(year: int, league: string): (r: Option<SeasonQuery>)
    ensures r.Some? <==> year in {2023, 2024, 2025}
    ensures r.Some? ==> r.value.sportId == SportId(league)
    ensures r.Some? ==> (r.value.startDate, r.value.endDate) == SeasonWindow(year).value
    ensures r.Some? ==> IsIsoDateIn(r.value.startDate, year) && IsIsoDateIn(r.value.endDate, year)
    ensures r.Some? ==> LexLess(r.value.startDate, r.value.endDate)
  {
    match SeasonWindow(year)
    case None => None
    case Some(w) =>
      SeasonWindowWellFormed(year);
      Some(SeasonQuery(SportId(league), w.0, w.1))
  }

  datatype Decision = Win | Loss | NoDecision

  /** The decision column's text, `'W'`, `'L'` or `'ND'`. */
  function DecisionCode(d: Decision): (r: string)
    ensures r != ""
    ensures r == "W" <==> d == Win
  {
    match d
    case Win => "W"
    case Loss => "L"
    case NoDecision => "ND"
  }

  /** W when the starter is the winning pitcher, else L when it is the
      losing pitcher, else ND. An absent winner or loser matches no one. */
  function Classify(starter: int, winner: Option<int>, loser: Option<int>): (r: Decision)
    ensures r == Win <==> winner == Some(starter)
    ensures r == Loss <==> winner != Some(starter) && loser == Some(starter)
    ensures r == NoDecision <==> winner != Some(starter) && loser != Some(starter)
  {
    if Some(starter) == winner then Win
    else if Some(starter) == loser then Loss
    else NoDecision
  }

  /** One row of the game-by-game table. `ip` is in tenths as written. */
  datatype StartRecord = StartRecord(
    pitcherName: string,
    team: string,
    gameDate: string,
    gamePk: int,
    ip: int,
    er: int,
    h: int,
    bb: int,
    so: int,
    decision: Decision,
    qualityStart: bool,
    wastedStart: bool)

  /** A quality start is at least 6.0 innings with at most 3 earned runs. */
  predicate IsQuality(ip: int, er: int) {
    ip >= 60 && er <= 3
  }

  /** The invariant every emitted record keeps: at least 4.0 innings, and the
      two flags derived from innings, earned runs and decision. */
  predicate WellFormed(r: StartRecord) {
    && r.ip >= 40
    && r.qualityStart == IsQuality(r.ip, r.er)
    && r.wastedStart == (r.qualityStart && r.decision != Win)
  }

  lemma WastedImpliesQuality(r: StartRecord)
    requires WellFormed(r)
    ensures r.wastedStart ==> r.qualityStart && r.decision != Win
    ensures r.qualityStart ==> r.ip >= 60 && r.er <= 3
  {
  }

  /** Where a conversion can raise inside one side's processing: at
      `inningsPitched`/`earnedRuns` (before the 4.0 filter), or at
      `hits`/`baseOnBalls`/`strikeOuts` (while building the row, after it). */
  datatype Stage = AtInnings | AtCounts

  datatype SideResult = Skipped | Raised(stage: Stage) | Emitted(rec: StartRecord)

  /** The record a side would emit once its stats are all well formed. */
  function BuildRecord(box: Boxscore, side: TeamSide, starter: int, info: PlayerInfo,
                       st: PitchingStats, pk: int, date: string): StartRecord
    requires st.inningsPitched.Value? && st.earnedRuns.Value? && st.hits.Value?
    requires st.baseOnBalls.Value? && st.strikeOuts.Value?
  {
    var ip := st.inningsPitched.v;
    var er := st.earnedRuns.v;
    var decision := Classify(starter, box.winner, box.loser);
    var quality := IsQuality(ip, er);
    StartRecord(info.fullName.GetOr("Unknown"), side.abbreviation.GetOr(""), date, pk,
                ip, er, st.hits.v, st.baseOnBalls.v, st.strikeOuts.v,
                decision, quality, quality && decision != Win)
  }

  /** The stats of the first listed pitcher of `side`, when the side has
      one, the player is listed and the stats object is non-empty. */
  function StarterStats(side: TeamSide): (r: Option<(int, PlayerInfo, PitchingStats)>)
    ensures r.Some? <==> |side.pitchers| > 0 && side.pitchers[0] in side.players
                         && side.players[side.pitchers[0]].pitching.Some?
    ensures r.Some? ==> r.value.0 == side.pitchers[0]
                        && r.value.1 == side.players[side.pitchers[0]]
                        && r.value.1.pitching == Some(r.value.2)
  {
    if |side.pitchers| == 0 then None
    else
      var id := side.pitchers[0];
      if id !in side.players then None
      else
        var info := side.players[id];
        match info.pitching
        case None => None
        case Some(st) => Some((id, info, st))
  }

  /** One iteration of the `for side in ['home', 'away']` loop body. */
  function SideOutcome(box: Boxscore, side: TeamSide, pk: int, date: string): (r: SideResult)
    ensures r.Emitted? ==> WellFormed(r.rec) && r.rec.gamePk == pk && r.rec.gameDate == date
    ensures r.Emitted? <==>
      && StarterStats(side).Some?
      && AllWellFormedNums(StarterStats(side).value.2)
      && StarterStats(side).value.2.inningsPitched.v >= 40
    ensures r == Raised(AtInnings) <==>
      StarterStats(side).Some? && !InningsWellFormed(StarterStats(side).value.2)
    ensures r == Skipped <==>
      || StarterStats(side).None?
      || (InningsWellFormed(StarterStats(side).value.2) && StarterStats(side).value.2.inningsPitched.v < 40)
    ensures r.Emitted? ==>
      var (id, info, st) := StarterStats(side).value;
      && r.rec.pitcherName == info.fullName.GetOr("Unknown")
      && r.rec.team == side.abbreviation.GetOr("")
      && r.rec.decision == Classify(id, box.winner, box.loser)
      && r.rec.ip == st.inningsPitched.v && r.rec.er == st.earnedRuns.v
      && r.rec.h == st.hits.v && r.rec.bb == st.baseOnBalls.v && r.rec.so == st.strikeOuts.v
  {
    match StarterStats(side)
    case None => Skipped
    case Some((id, info, st)) =>
      if !InningsWellFormed(st) then Raised(AtInnings)
      else if st.inningsPitched.v < 40 then Skipped
      else if !(st.hits.Value? && st.baseOnBalls.Value? && st.strikeOuts.Value?) then Raised(AtCounts)
      else Emitted(BuildRecord(box, side, id, info, st, pk, date))
  }

  predicate InningsWellFormed(st: PitchingStats) {
    st.inningsPitched.Value? && st.earnedRuns.Value?
  }

  predicate AllWellFormedNums(st: PitchingStats) {
    && InningsWellFormed(st)
    && st.hits.Value? && st.baseOnBalls.Value? && st.strikeOuts.Value?
  }

  /** The order of the `for side in ['home', 'away']` loop. */
  function Sides(box: Boxscore): seq<TeamSide> {
    [box.home, box.away]
  }

  /** Every final game listed carries its `gamePk`, so `game['gamePk']`
      cannot raise `KeyError`. */
  predicate GamesHavePks(games: seq<Game>) {
    forall g :: g in games && g.detailedState == Some("Final") ==> g.gamePk.Some?
  }

  predicate DatesHavePks(dates: seq<ScheduleDate>) {
    forall d :: d in dates ==> GamesHavePks(d.games)
  }

  /** The (date, gamePk) pairs of the games of `dates` whose detailed state
      is exactly "Final". */
  function FinalGames(dates: seq<ScheduleDate>): set<(string, int)> {
    set d, g | d in dates && g in d.games && g.detailedState == Some("Final") && g.gamePk.Some?
      :: (d.date, g.gamePk.value)
  }
}

=== FILE: stats_api.dfy ===
/** The `/api/stats` handler `get_stats` (app.py): collect, aggregate,
    attach examples, sort by `Wasted_Starts` descending and project to the
    output columns. Parsing the query string is left to the caller. */
module StatsApi {
  import opened Wrappers
  import opened Feed
  import opened Starts
  import opened Aggregation
  import opened WastedExamples
  import App = AppCollector

  /** One JSON record, in the order of `final_columns`. */
  datatype ApiRow = ApiRow(
    name: string, team: string, gs: int, w: int, l: int, era: Option<real>,
    ip: int, so: int, bb: int, whip: Option<real>, qs: int, ws: int, example: string)

  function Project(r: ExampleRow): ApiRow {
    var t := r.row.totals;
    ApiRow(r.row.key.name, r.row.key.team, t.gs, t.w, t.l, r.row.era,
           t.ip, t.so, t.bb, r.row.whip, t.qs, t.ws, r.example)
  }

  /** Ordered by `Wasted_Starts`, largest first. */
  predicate NonIncreasing(rows: seq<ApiRow>) {
    forall i, j :: 0 <= i < j < |rows| ==> rows[i].ws >= rows[j].ws
  }

  /** Inserts `x` into a list sorted by `Wasted_Starts`, largest first. */
  function InsertByWasted(x: ApiRow, rows: seq<ApiRow>): (r: seq<ApiRow>)
    requires NonIncreasing(rows)
    ensures NonIncreasing(r)
    ensures multiset(r) == multiset(rows) + multiset{x}
    ensures |r| > 0 && (r[0] == x || (|rows| > 0 && r[0] == rows[0]))
    decreases |rows|
  {
    if |rows| == 0 then [x]
    else if x.ws >= rows[0].ws then
      ConsNonIncreasing(x, rows);
      [x] + rows
    else
      var tail := InsertByWasted(x, rows[1..]);
      ConsNonIncreasing(rows[0], tail);
      assert rows == [rows[0]] + rows[1..];
      [rows[0]] + tail
  }

  /** A row no smaller than the head of a sorted list can go in front. */
  lemma ConsNonIncreasing(a: ApiRow, rows: seq<ApiRow>)
    requires NonIncreasing(rows)
    requires |rows| == 0 || rows[0].ws <= a.ws
    ensures NonIncreasing([a] + rows)
  {
    forall i, j | 0 <= i < j < |[a] + rows|
      ensures ([a] + rows)[i].ws >= ([a] + rows)[j].ws
    {
      assert ([a] + rows)[j] == rows[j - 1];
      if i > 0 {
        assert ([a] + rows)[i] == rows[i - 1];
      }
    }
  }

  /** `sort_values('Wasted_Starts', ascending=False)`: a reordering of the
      rows, largest wasted-start count first. The source's sort is not
      stable, so the order among equal counts is not fixed. */
  function SortByWasted(rows: seq<ApiRow>): (r: seq<ApiRow>)
    ensures NonIncreasing(r)
    ensures multiset(r) == multiset(rows)
    decreases |rows|
  {
    if |rows| == 0 then []
    else
      assert rows == [rows[0]] + rows[1..];
      InsertByWasted(rows[0], SortByWasted(rows[1..]))
  }

  /** The qualifying rows with their examples, before sorting: one record
      per season-table row, carrying that row's key, totals and ratios. */
  function Table(rs: seq<StartRecord>, minStarts: int): (r: seq<ApiRow>)
    ensures |r| == |Aggregate(rs, minStarts)|
    ensures forall i :: 0 <= i < |r| ==>
      var row := Aggregate(rs, minStarts)[i];
      && r[i].name == row.key.name && r[i].team == row.key.team
      && r[i].gs == row.totals.gs && r[i].w == row.totals.w && r[i].l == row.totals.l
      && r[i].ip == row.totals.ip && r[i].so == row.totals.so && r[i].bb == row.totals.bb
      && r[i].qs == row.totals.qs && r[i].ws == row.totals.ws
      && r[i].era == row.era && r[i].whip == row.whip
      && r[i].example == ExampleFor(rs, row.key.name)
  {
    var rows := AttachExamples(rs, Aggregate(rs, minStarts));
    seq(|rows|, i requires 0 <= i < |rows| => Project(rows[i]))
  }

  datatype Response =
    | NotFound                      // 404, "No data available for the selected year and league"
    | ServerError(error: App.Failure)  // an exception escaping the collector
    | Ok(rows: seq<ApiRow>)

  /** `get_stats` with year, league and min_starts already parsed. */
  function GetStats(year: int, league: string, minStarts: int, src: Source): (r: Response)
    ensures r.NotFound? <==> App.Collect(year, league, src) == Success(None)
    ensures r.ServerError? <==> App.Collect(year, league, src).Failure?
    ensures r.Ok? ==> NonIncreasing(r.rows)
    ensures r.Ok? ==> multiset(r.rows) == multiset(Table(App.Collect(year, league, src).value.value, minStarts))
  {
    match App.Collect(year, league, src)
    case Failure(e) => ServerError(e)
    case Success(None) => NotFound
    case Success(Some(rs)) => Ok(SortByWasted(Table(rs, minStarts)))
  }

  /** Every row of a successful response belongs to a pitcher/team pair with
      at least `minStarts` starts, has defined ERA and WHIP, keeps
      W + L <= GS and Wasted <= Quality <= GS, and carries the example of
      its pitcher's name. */
  lemma GetStatsRows(year: int, league: string, minStarts: int, src: Source)
    requires GetStats(year, league, minStarts, src).Ok?
    ensures forall row :: row in GetStats(year, league, minStarts, src).rows ==>
      && row.gs >= minStarts && row.gs >= 1
      && row.era.Some? && row.whip.Some?
      && row.w + row.l <= row.gs
      && 0 <= row.ws <= row.qs <= row.gs
      && row.example == ExampleFor(App.Collect(year, league, src).value.value, row.name)
  {
    var rs := App.Collect(year, league, src).value.value;
    App.CollectWellFormed(year, league, src);
    var table := Table(rs, minStarts);
    var agg := Aggregate(rs, minStarts);
    forall row | row in GetStats(year, league, minStarts, src).rows
      ensures row.gs >= minStarts && row.gs >= 1
      ensures row.era.Some? && row.whip.Some?
      ensures row.w + row.l <= row.gs
      ensures 0 <= row.ws <= row.qs <= row.gs
      ensures row.example == ExampleFor(rs, row.name)
    {
      assert row in multiset(table);
      var i :| 0 <= i < |table| && table[i] == row;
      assert agg[i] in agg;
      RowOfWellFormed(rs, minStarts, agg[i]);
    }
  }
}

=== FILE: streamlit_collector.dfy ===
/** `get_game_by_game` as written in streamlit_app.py, with the HTTP calls
    replaced by a `Source`. Its handlers are bare `except:` clauses, so any
    exception inside a game abandons that game and any exception outside
    one makes the whole call return `None`. */
module StreamlitCollector {
  import opened Wrappers
  import opened Feed
  import opened Starts

  /** The records of one boxscore, side by side in loop order. A side that
      raises abandons the remaining sides, but records already appended for
      earlier sides stay. */
  function SidesStarts(box: Boxscore, sides: seq<TeamSide>, pk: int, date: string): (r: seq<StartRecord>)
    ensures |r| <= |sides|
    ensures forall x :: x in r ==> WellFormed(x) && x.gamePk == pk && x.gameDate == date
    ensures forall x :: x in r ==> exists i :: 0 <= i < |sides| && SideOutcome(box, sides[i], pk, date) == Emitted(x)
    decreases |sides|
  {
    if |sides| == 0 then []
    else
      var rest := SidesStarts(box, sides[1..], pk, date);
      assert forall x :: x in rest ==> exists i :: 1 <= i < |sides| && SideOutcome(box, sides[i], pk, date) == Emitted(x) by {
        forall x | x in rest
          ensures exists i :: 1 <= i < |sides| && SideOutcome(box, sides[i], pk, date) == Emitted(x)
        {
          var i :| 0 <= i < |sides[1..]| && SideOutcome(box, sides[1..][i], pk, date) == Emitted(x);
          assert sides[1..][i] == sides[i + 1];
        }
      }
      match SideOutcome(box, sides[0], pk, date)
      case Raised(_) => []
      case Skipped => rest
      case Emitted(rec) => [rec] + rest
  }

  /** The records of one final game: at most one per side. */
  function GameStarts(box: Boxscore, pk: int, date: string): (r: seq<StartRecord>)
    ensures |r| <= 2
    ensures forall x :: x in r ==> WellFormed(x) && x.gamePk == pk && x.gameDate == date
  {
    SidesStarts(box, Sides(box), pk, date)
  }

  /** `x` is one of the records of a final game of `games` whose boxscore
      was fetched, on the schedule date `date`. */
  predicate RecordOfGames(x: StartRecord, games: seq<Game>, date: string, fetch: int -> Option<Boxscore>) {
    exists g :: g in games && g.detailedState == Some("Final") && g.gamePk == Some(x.gamePk)
                && fetch(x.gamePk).Some? && x in GameStarts(fetch(x.gamePk).value, x.gamePk, date)
  }

  /** `x` is one of the records of a fetched final game of the schedule. */
  predicate RecordOfDates(x: StartRecord, dates: seq<ScheduleDate>, fetch: int -> Option<Boxscore>) {
    exists d :: d in dates && RecordOfGames(x, d.games, d.date, fetch)
  }

  /** The records of the games listed on one schedule date, or `None` when
      a final game has no `gamePk` (the `KeyError` escapes to the outer
      handler). A failed boxscore request skips only that game. */
  function GamesStarts(games: seq<Game>, date: string, fetch: int -> Option<Boxscore>): (r: Option<seq<StartRecord>>)
    ensures r.Some? ==> forall x :: x in r.value ==> WellFormed(x)
    ensures r.Some? ==> forall x :: x in r.value ==> (x.gameDate, x.gamePk) in FinalGames([ScheduleDate(date, games)])
    ensures r.Some? <==> GamesHavePks(games)
    decreases |games|
  {
    if |games| == 0 then Some([])
    else
      var g := games[0];
      GamesHavePksCons(games);
      var rest := GamesStarts(games[1..], date, fetch);
      assert rest.Some? ==> forall x :: x in rest.value ==> (x.gameDate, x.gamePk) in FinalGames([ScheduleDate(date, games)]) by {
        if rest.Some? {
          forall x | x in rest.value
            ensures (x.gameDate, x.gamePk) in FinalGames([ScheduleDate(date, games)])
          {
            var d, h :| d in [ScheduleDate(date, games[1..])] && h in d.games && h.detailedState == Some("Final")
                     && h.gamePk.Some? && (x.gameDate, x.gamePk) == (d.date, h.gamePk.value);
            assert h in ScheduleDate(date, games).games;
          }
        }
      }
      if g.detailedState != Some("Final") then rest
      else match g.gamePk
        case None => None
        case Some(pk) =>
          var here := match fetch(pk) case None => [] case Some(box) => GameStarts(box, pk, date);
          assert forall x :: x in here ==> (x.gameDate, x.gamePk) in FinalGames([ScheduleDate(date, games)]) by {
            forall x | x in here
              ensures (x.gameDate, x.gamePk) in FinalGames([ScheduleDate(date, games)])
            {
              assert ScheduleDate(date, games) in [ScheduleDate(date, games)] && g in games;
            }
          }
          match rest
          case None => None
          case Some(tail) => Some(here + tail)
  }

  lemma RecordOfGamesTail(x: StartRecord, games: seq<Game>, date: string, fetch: int -> Option<Boxscore>)
    requires |games| > 0 && RecordOfGames(x, games[1..], date, fetch)
    ensures RecordOfGames(x, games, date, fetch)
  {
    var g :| g in games[1..] && g.detailedState == Some("Final") && g.gamePk == Some(x.gamePk)
             && fetch(x.gamePk).Some? && x in GameStarts(fetch(x.gamePk).value, x.gamePk, date);
    assert g in games;
  }

  /** Every record of a date comes from a fetched final game of that date:
      it is one of that game's own records. */
  lemma {:induction false} GamesSound(games: seq<Game>, date: string, fetch: int -> Option<Boxscore>)
    requires GamesStarts(games, date, fetch).Some?
    ensures forall x :: x in GamesStarts(games, date, fetch).value ==> RecordOfGames(x, games, date, fetch)
    decreases |games|
  {
    if |games| > 0 {
      var g := games[0];
      if GamesStarts(games[1..], date, fetch).Some? {
        GamesSound(games[1..], date, fetch);
        forall x | x in GamesStarts(games[1..], date, fetch).value
          ensures RecordOfGames(x, games, date, fetch)
        {
          RecordOfGamesTail(x, games, date, fetch);
        }
      }
      if g.detailedState == Some("Final") && g.gamePk.Some? && fetch(g.gamePk.value).Some? {
        var pk := g.gamePk.value;
        forall x | x in GameStarts(fetch(pk).value, pk, date)
          ensures RecordOfGames(x, games, date, fetch)
        {
          assert g in games && x.gamePk == pk;
        }
      }
    }
  }

  lemma GamesHavePksCons(games: seq<Game>)
    requires |games| > 0
    ensures GamesHavePks(games) <==>
      (games[0].detailedState == Some("Final") ==> games[0].gamePk.Some?) && GamesHavePks(games[1..])
  {
    assert games == [games[0]] + games[1..];
  }

  /** The records of every date of the schedule, in schedule order. */
  function DatesStarts(dates: seq<ScheduleDate>, fetch: int -> Option<Boxscore>): (r: Option<seq<StartRecord>>)
    ensures r.Some? ==> forall x :: x in r.value ==> WellFormed(x)
    ensures r.Some? ==> forall x :: x in r.value ==> (x.gameDate, x.gamePk) in FinalGames(dates)
    ensures r.Some? <==> DatesHavePks(dates)
    decreases |dates|
  {
    if |dates| == 0 then Some([])
    else
      DatesHavePksCons(dates);
      var here := GamesStarts(dates[0].games, dates[0].date, fetch);
      var rest := DatesStarts(dates[1..], fetch);
      if here.None? || rest.None? then None
      else
        FinalGamesOfParts(dates);
        Some(here.value + rest.value)
  }

  lemma DatesHavePksCons(dates: seq<ScheduleDate>)
    requires |dates| > 0
    ensures DatesHavePks(dates) <==> GamesHavePks(dates[0].games) && DatesHavePks(dates[1..])
  {
    assert dates == [dates[0]] + dates[1..];
  }

  /** Every record of the season comes from a fetched final game of the
      schedule: it is one of that game's own records. */
  lemma {:induction false} DatesSound(dates: seq<ScheduleDate>, fetch: int -> Option<Boxscore>)
    requires DatesStarts(dates, fetch).Some?
    ensures forall x :: x in DatesStarts(dates, fetch).value ==> RecordOfDates(x, dates, fetch)
    decreases |dates|
  {
    if |dates| > 0 {
      GamesSound(dates[0].games, dates[0].date, fetch);
      DatesSound(dates[1..], fetch);
      assert dates[0] in dates;
      forall x | x in DatesStarts(dates[1..], fetch).value
        ensures RecordOfDates(x, dates, fetch)
      {
        var d :| d in dates[1..] && RecordOfGames(x, d.games, d.date, fetch);
        assert d in dates;
      }
    }
  }

  lemma FinalGamesOfParts(dates: seq<ScheduleDate>)
    requires |dates| > 0
    ensures FinalGames([ScheduleDate(dates[0].date, dates[0].games)]) <= FinalGames(dates)
    ensures FinalGames(dates[1..]) <= FinalGames(dates)
  {
    assert ScheduleDate(dates[0].date, dates[0].games) == dates[0];
    forall k | k in FinalGames(dates[1..])
      ensures k in FinalGames(dates)
    {
      var d, g :| d in dates[1..] && g in d.games && g.detailedState == Some("Final")
               && g.gamePk.Some? && k == (d.date, g.gamePk.value);
      assert d in dates;
    }
  }

  /** `get_game_by_game(year, league)`: `None` for an unsupported year
      (before any request), when the schedule request fails, when a final
      game lacks its `gamePk`, or when no start qualified. */
  function Collect(year: int, league: string, src: Source): (r: Option<seq<StartRecord>>)
    ensures year !in {2023, 2024, 2025} ==> r.None?
    ensures r.Some? ==> |r.value| > 0 && forall x :: x in r.value ==> WellFormed(x)
    ensures r.Some? ==>
      && QueryFor(year, league).Some?
      && src.schedule(QueryFor(year, league).value).Some?
      && var dates := src.schedule(QueryFor(year, league).value).value.dates;
         forall x :: x in r.value ==> (x.gameDate, x.gamePk) in FinalGames(dates)
  {
    match QueryFor(year, league)
    case None => None
    case Some(q) =>
      match src.schedule(q)
      case None => None
      case Some(sched) =>
        match DatesStarts(sched.dates, src.boxscore)
        case None => None
        case Some(records) => if |records| == 0 then None else Some(records)
  }

  /** An exception on the away side abandons only the rest of the game: a
      home record already appended is kept. */
  lemma HomeRecordSurvivesAwayFailure(box: Boxscore, pk: int, date: string)
    requires SideOutcome(box, box.home, pk, date).Emitted?
    requires SideOutcome(box, box.away, pk, date).Raised?
    ensures GameStarts(box, pk, date) == [SideOutcome(box, box.home, pk, date).rec]
  {
    GameStartsExact(box, pk, date);
    assert [SideOutcome(box, box.home, pk, date).rec] + [] == [SideOutcome(box, box.home, pk, date).rec];
  }

  /** An exception on the home side abandons the away side too. */
  lemma HomeFailureAbandonsGame(box: Boxscore, pk: int, date: string)
    requires SideOutcome(box, box.home, pk, date).Raised?
    ensures GameStarts(box, pk, date) == []
  {
    GameStartsExact(box, pk, date);
  }

  // Completeness: every start the loops reach is returned.

  /** The record a side contributes on its own: its emitted record, if any. */
  function Emits(o: SideResult): (r: seq<StartRecord>)
    ensures |r| <= 1 && (o.Emitted? <==> |r| == 1)
    ensures o.Emitted? ==> r == [o.rec]
  {
    if o.Emitted? then [o.rec] else []
  }

  /** One game's records exactly: nothing when the home side raises;
      otherwise the home side's record followed by the away side's. */
  lemma GameStartsExact(box: Boxscore, pk: int, date: string)
    ensures GameStarts(box, pk, date) ==
      var home := SideOutcome(box, box.home, pk, date);
      var away := SideOutcome(box, box.away, pk, date);
      if home.Raised? then [] else Emits(home) + Emits(away)
  {
    var sides := Sides(box);
    assert sides[1..] == [box.away] && [box.away][1..] == [];
    var tail := SidesStarts(box, sides[1..], pk, date);
    assert tail == Emits(SideOutcome(box, box.away, pk, date)) + [];
  }

  /** An emitted side's record is returned unless an earlier side raised. */
  lemma {:induction false} SidesComplete(box: Boxscore, sides: seq<TeamSide>, pk: int, date: string, i: nat)
    requires i < |sides| && SideOutcome(box, sides[i], pk, date).Emitted?
    requires forall j :: 0 <= j < i ==> !SideOutcome(box, sides[j], pk, date).Raised?
    ensures SideOutcome(box, sides[i], pk, date).rec in SidesStarts(box, sides, pk, date)
    decreases i
  {
    if i > 0 {
      assert forall j :: 0 <= j < i - 1 ==> sides[1..][j] == sides[j + 1];
      assert !SideOutcome(box, sides[0], pk, date).Raised?;
      SidesComplete(box, sides[1..], pk, date, i - 1);
    }
  }

  /** Every start of every fetched final game on one date is returned,
      provided the date's games all carry their `gamePk`. */
  lemma {:induction false} GamesComplete(games: seq<Game>, date: string, fetch: int -> Option<Boxscore>,
                                         g: Game, box: Boxscore)
    requires g in games && g.detailedState == Some("Final") && g.gamePk.Some?
    requires fetch(g.gamePk.value) == Some(box)
    requires GamesStarts(games, date, fetch).Some?
    ensures forall x :: x in GameStarts(box, g.gamePk.value, date) ==> x in GamesStarts(games, date, fetch).value
    decreases |games|
  {
    if games[0] != g {
      assert g in games[1..] by {
        assert games == [games[0]] + games[1..];
      }
      GamesComplete(games[1..], date, fetch, g, box);
    }
  }

  /** Every start of every fetched final game of the schedule is returned,
      provided no final game lacks its `gamePk`. */
  lemma {:induction false} DatesComplete(dates: seq<ScheduleDate>, fetch: int -> Option<Boxscore>,
                                         d: ScheduleDate, g: Game, box: Boxscore)
    requires d in dates && g in d.games && g.detailedState == Some("Final") && g.gamePk.Some?
    requires fetch(g.gamePk.value) == Some(box)
    requires DatesStarts(dates, fetch).Some?
    ensures forall x :: x in GameStarts(box, g.gamePk.value, d.date) ==> x in DatesStarts(dates, fetch).value
    decreases |dates|
  {
    if dates[0] == d {
      GamesComplete(d.games, d.date, fetch, g, box);
    } else {
      assert d in dates[1..] by {
        assert dates == [dates[0]] + dates[1..];
      }
      DatesComplete(dates[1..], fetch, d, g, box);
    }
  }

  /** The season's starts are returned: when the schedule was fetched, no
      final game lacks its `gamePk` and some fetched final game has a
      qualifying start, the result is `Some` and holds every start of that
      game. */
  lemma CollectComplete(year: int, league: string, src: Source, sched: Schedule,
                        d: ScheduleDate, g: Game, box: Boxscore)
    requires QueryFor(year, league).Some? && src.schedule(QueryFor(year, league).value) == Some(sched)
    requires DatesHavePks(sched.dates)
    requires d in sched.dates && g in d.games && g.detailedState == Some("Final") && g.gamePk.Some?
    requires src.boxscore(g.gamePk.value) == Some(box)
    requires GameStarts(box, g.gamePk.value, d.date) != []
    ensures Collect(year, league, src).Some?
    ensures forall x :: x in GameStarts(box, g.gamePk.value, d.date) ==> x in Collect(year, league, src).value
  {
    var recs := DatesStarts(sched.dates, src.boxscore);
    assert recs.Some?;
    DatesComplete(sched.dates, src.boxscore, d, g, box);
    var x := GameStarts(box, g.gamePk.value, d.date)[0];
    assert x in recs.value;
    assert Collect(year, league, src) == Some(recs.value);
  }

  // Exactness: the loops concatenate the games' records, each game's once.

  /** One game on its own: nothing unless it is final; `None` when it lacks
      `gamePk`; nothing when its boxscore request failed; otherwise its
      records. */
  lemma GamesStartsOne(g: Game, date: string, fetch: int -> Option<Boxscore>)
    ensures GamesStarts([g], date, fetch) ==
      if g.detailedState != Some("Final") then Some([])
      else if g.gamePk.None? then None
      else if fetch(g.gamePk.value).None? then Some([])
      else Some(GameStarts(fetch(g.gamePk.value).value, g.gamePk.value, date))
  {
    assert [g][1..] == [];
    assert GamesStarts([g][1..], date, fetch) == Some([]);
    assert [g][0] == g;
    if g.detailedState == Some("Final") && g.gamePk.Some? {
      var rs := match fetch(g.gamePk.value) case None => [] case Some(box) => GameStarts(box, g.gamePk.value, date);
      assert rs + [] == rs;
    }
  }

  /** The games loop over `a + b` is the loop over `a` followed by the loop
      over `b`. */
  lemma {:induction false} GamesStartsAppend(a: seq<Game>, b: seq<Game>, date: string, fetch: int -> Option<Boxscore>)
    ensures GamesStarts(a + b, date, fetch) ==
      if GamesStarts(a, date, fetch).Some? && GamesStarts(b, date, fetch).Some?
      then Some(GamesStarts(a, date, fetch).value + GamesStarts(b, date, fetch).value)
      else None
    decreases |a|
  {
    if |a| == 0 {
      assert a + b == b;
      if GamesStarts(b, date, fetch).Some? {
        assert [] + GamesStarts(b, date, fetch).value == GamesStarts(b, date, fetch).value;
      }
    } else {
      assert (a + b)[0] == a[0] && (a + b)[1..] == a[1..] + b;
      GamesStartsAppend(a[1..], b, date, fetch);
      var g := a[0];
      if g.detailedState == Some("Final") && g.gamePk.Some?
         && GamesStarts(a[1..], date, fetch).Some? && GamesStarts(b, date, fetch).Some? {
        var here := match fetch(g.gamePk.value) case None => [] case Some(box) => GameStarts(box, g.gamePk.value, date);
        var x := GamesStarts(a[1..], date, fetch).value;
        var y := GamesStarts(b, date, fetch).value;
        assert here + (x + y) == (here + x) + y;
      }
    }
  }

  /** One date on its own is the loop over its games. */
  lemma DatesStartsOne(d: ScheduleDate, fetch: int -> Option<Boxscore>)
    ensures DatesStarts([d], fetch) == GamesStarts(d.games, d.date, fetch)
  {
    assert [d][1..] == [];
    if GamesStarts(d.games, d.date, fetch).Some? {
      var rs := GamesStarts(d.games, d.date, fetch).value;
      assert rs + [] == rs;
    }
  }

  /** The dates loop over `a + b` is the loop over `a` followed by the loop
      over `b`. */
  lemma {:induction false} DatesStartsAppend(a: seq<ScheduleDate>, b: seq<ScheduleDate>, fetch: int -> Option<Boxscore>)
    ensures DatesStarts(a + b, fetch) ==
      if DatesStarts(a, fetch).Some? && DatesStarts(b, fetch).Some?
      then Some(DatesStarts(a, fetch).value + DatesStarts(b, fetch).value)
      else None
    decreases |a|
  {
    if |a| == 0 {
      assert a + b == b;
      if DatesStarts(b, fetch).Some? {
        assert [] + DatesStarts(b, fetch).value == DatesStarts(b, fetch).value;
      }
    } else {
      assert (a + b)[0] == a[0] && (a + b)[1..] == a[1..] + b;
      DatesStartsAppend(a[1..], b, fetch);
      if GamesStarts(a[0].games, a[0].date, fetch).Some?
         && DatesStarts(a[1..], fetch).Some? && DatesStarts(b, fetch).Some? {
        var here := GamesStarts(a[0].games, a[0].date, fetch).value;
        var x := DatesStarts(a[1..], fetch).value;
        var y := DatesStarts(b, fetch).value;
        assert here + (x + y) == (here + x) + y;
      }
    }
  }

  /** Every record `Collect` returns is one of the records of a fetched
      final game of the schedule it fetched. */
  lemma CollectSound(year: int, league: string, src: Source)
    requires Collect(year, league, src).Some?
    ensures var dates := src.schedule(QueryFor(year, league).value).value.dates;
      forall x :: x in Collect(year, league, src).value ==> RecordOfDates(x, dates, src.boxscore)
  {
    DatesSound(src.schedule(QueryFor(year, league).value).value.dates, src.boxscore);
  }
}

=== FILE: text.dfy ===
/** String helpers with Python's semantics: code-point lexicographic
    comparison (`str < str`), ASCII lower-casing and `str(int)`. */
module Text {

  /** Python's `a < b` on `str`: lexicographic by code point, a proper
      prefix sorting first. ISO dates `YYYY-MM-DD` compare chronologically. */
  predicate LexLess(a: string, b: string)
    decreases |a|
  {
    if |a| == 0 then |b| > 0
    else if |b| == 0 then false
    else if a[0] != b[0] then a[0] < b[0]
    else LexLess(a[1..], b[1..])
  }

  /** Strings that agree on their first `k` characters and differ at `k`
      are ordered by that character. */
  lemma {:induction false} LexLessAt(a: string, b: string, k: nat)
    requires k < |a| && k < |b| && a[..k] == b[..k] && a[k] < b[k]
    ensures LexLess(a, b)
    decreases k
  {
    if k > 0 {
      assert a[0] == a[..k][0] == b[..k][0] == b[0];
      assert a[1..][..k - 1] == a[1..k] == a[..k][1..];
      assert b[1..][..k - 1] == b[1..k] == b[..k][1..];
      LexLessAt(a[1..], b[1..], k - 1);
    }
  }

  /** Python's `a <= b` on `str`. */
  predicate LexLe(a: string, b: string) {
    a == b || LexLess(a, b)
  }

  lemma {:induction false} LexIrreflexive(a: string)
    ensures !LexLess(a, a)
    decreases |a|
  {
    if |a| > 0 {
      LexIrreflexive(a[1..]);
    }
  }

  lemma {:induction false} LexTransitive(a: string, b: string, c: string)
    requires LexLess(a, b) && LexLess(b, c)
    ensures LexLess(a, c)
    decreases |a|
  {
    if |a| > 0 && a[0] == b[0] && b[0] == c[0] {
      LexTransitive(a[1..], b[1..], c[1..]);
    }
  }

  lemma {:induction false} LexTotal(a: string, b: string)
    ensures a == b || LexLess(a, b) || LexLess(b, a)
    decreases |a|
  {
    if |a| > 0 && |b| > 0 && a[0] == b[0] {
      LexTotal(a[1..], b[1..]);
      if a[1..] == b[1..] {
        assert a == [a[0]] + a[1..] && b == [b[0]] + b[1..];
      }
    }
  }

  lemma LexLeTransitive(a: string, b: string, c: string)
    requires LexLe(a, b) && LexLe(b, c)
    ensures LexLe(a, c)
  {
    if a != b && b != c {
      LexTransitive(a, b, c);
    }
  }

  predicate IsUpperAscii(c: char) {
    'A' <= c <= 'Z'
  }

  /** `str.lower()` restricted to ASCII letters. */
  function ToLower(s: string): (r: string)
    ensures |r| == |s|
    ensures forall i :: 0 <= i < |s| ==> !IsUpperAscii(r[i])
    ensures forall i :: 0 <= i < |s| && !IsUpperAscii(s[i]) ==> r[i] == s[i]
    ensures forall i :: 0 <= i < |s| && IsUpperAscii(s[i]) ==> r[i] == (s[i] as int + 32) as char
  {
    seq(|s|, i requires 0 <= i < |s| =>
      if IsUpperAscii(s[i]) then (s[i] as int + 32) as char else s[i])
  }

  function DigitChar(d: nat): (c: char)
    requires d < 10
    ensures '0' <= c <= '9'
  {
    ('0' as int + d) as char
  }

  /** `str(n)` for a natural number: decimal digits, no leading zeros. */
  function NatToString(n: nat): (r: string)
    ensures |r| > 0
    ensures forall i :: 0 <= i < |r| ==> '0' <= r[i] <= '9'
    ensures n > 0 ==> r[0] != '0'
    decreases n
  {
    if n < 10 then [DigitChar(n)] else NatToString(n / 10) + [DigitChar(n % 10)]
  }

  /** The four digits of a four-digit number, most significant first. */
  lemma NatToStringFourDigits(n: nat)
    requires 1000 <= n < 10000
    ensures NatToString(n) ==
      [DigitChar(n / 1000), DigitChar(n / 100 % 10), DigitChar(n / 10 % 10), DigitChar(n % 10)]
  {
    assert n / 100 / 10 == n / 1000 && n / 10 / 10 == n / 100;
    assert NatToString(n / 1000) == [DigitChar(n / 1000)];
    assert NatToString(n / 100) == [DigitChar(n / 1000), DigitChar(n / 100 % 10)];
    assert NatToString(n / 10) ==
      [DigitChar(n / 1000), DigitChar(n / 100 % 10), DigitChar(n / 10 % 10)];
  }

  /** `str(n)` for any integer. */
  function IntToString(n: int): (r: string)
    ensures |r| > 0
    ensures n >= 0 <==> r[0] != '-'
  {
    if n < 0 then "-" + NatToString(-n) else NatToString(n)
  }

  /** Python's `str(float)` for a value held as integer tenths: `61` prints
      as `6.1`, `70` as `7.0`. */
  function TenthsToString(t: int): (r: string)
    ensures |r| >= 3
    ensures r[|r| - 2] == '.'
  {
    var a := if t < 0 then -t else t;
    (if t < 0 then "-" else "") + NatToString(a / 10) + "." + [DigitChar(a % 10)]
  }
}

=== FILE: wasted_examples.dfy ===
/** `get_wasted_start_examples` (app.py): for each season row, the
    earliest wasted start of a pitcher with the row's name, formatted as
    "<date> (IP:<ip>, ER:<er>, Dec:<decision>)", or a fixed marker. */
module WastedExamples {
  import opened Wrappers
  import opened Text
  import opened Starts
  import opened Aggregation

  const NoWastedStarts: string := "No wasted starts"

  /** The wasted starts of pitchers called `name`, of any team. */
  function WastedStartsOf(rs: seq<StartRecord>, name: string): (w: seq<StartRecord>)
    ensures forall x :: x in w <==> x in rs && x.pitcherName == name && x.wastedStart
    decreases |rs|
  {
    if |rs| == 0 then []
    else
      var rest := WastedStartsOf(rs[1..], name);
      if rs[0].pitcherName == name && rs[0].wastedStart then [rs[0]] + rest else rest
  }

  /** A start with the least ISO date. `sort_values` is not stable, so the
      source leaves the choice among equal dates open; this picks the first. */
  function Earliest(ws: seq<StartRecord>): (e: StartRecord)
    requires |ws| > 0
    ensures e in ws
    ensures forall x :: x in ws ==> LexLe(e.gameDate, x.gameDate)
    decreases |ws|
  {
    if |ws| == 1 then ws[0]
    else
      var m := Earliest(ws[1..]);
      LexTotal(ws[0].gameDate, m.gameDate);
      if LexLe(ws[0].gameDate, m.gameDate) then
        assert forall x :: x in ws[1..] ==> LexLe(ws[0].gameDate, x.gameDate) by {
          forall x | x in ws[1..] ensures LexLe(ws[0].gameDate, x.gameDate) {
            LexLeTransitive(ws[0].gameDate, m.gameDate, x.gameDate);
          }
        }
        ws[0]
      else
        assert LexLe(m.gameDate, ws[0].gameDate);
        m
  }

  /** The start an example is taken from, if the name has a wasted start. */
  function ChosenExample(rs: seq<StartRecord>, name: string): (r: Option<StartRecord>)
    ensures r.None? <==> forall x :: x in rs && x.pitcherName == name ==> !x.wastedStart
    ensures r.Some? ==> && r.value in rs && r.value.pitcherName == name && r.value.wastedStart
                        && forall x :: x in rs && x.pitcherName == name && x.wastedStart ==>
                             LexLe(r.value.gameDate, x.gameDate)
  {
    var ws := WastedStartsOf(rs, name);
    if |ws| == 0 then None else Some(Earliest(ws))
  }

  /** `first_wasted['decision'] if first_wasted['decision'] else 'ND'`. */
  function DecisionText(d: string): (r: string)
    ensures r != ""
    ensures d != "" ==> r == d
  {
    if d == "" then "ND" else d
  }

  /** The fallback to 'ND' never applies to a recorded decision. */
  lemma DecisionTextOfRecorded(d: Decision)
    ensures DecisionText(DecisionCode(d)) == DecisionCode(d)
  {
  }

  /** The example string "<date> (IP:<ip>, ER:<er>, Dec:<decision>)", where
      the decision is the start's own W, L or ND. It begins with the date
      and, because it contains '(' and the marker does not, it never equals
      the marker. */
  function FormatExample(e: StartRecord): (s: string)
    ensures s == e.gameDate + " (IP:" + TenthsToString(e.ip) + ", ER:" + IntToString(e.er)
                 + ", Dec:" + DecisionCode(e.decision) + ")"
    ensures |s| > |e.gameDate| && s[..|e.gameDate|] == e.gameDate
    ensures s != NoWastedStarts
  {
    DecisionTextOfRecorded(e.decision);
    var s := e.gameDate + " (IP:" + TenthsToString(e.ip) + ", ER:" + IntToString(e.er)
             + ", Dec:" + DecisionText(DecisionCode(e.decision)) + ")";
    assert s[|e.gameDate| + 1] == '(';
    assert forall i :: 0 <= i < |NoWastedStarts| ==> NoWastedStarts[i] != '(';
    s
  }

  /** `examples[pitcher_name]`. */
  function ExampleFor(rs: seq<StartRecord>, name: string): (s: string)
    ensures s == NoWastedStarts <==> forall x :: x in rs && x.pitcherName == name ==> !x.wastedStart
    ensures s != NoWastedStarts ==> ChosenExample(rs, name).Some? && s == FormatExample(ChosenExample(rs, name).value)
  {
    match ChosenExample(rs, name)
    case None => NoWastedStarts
    case Some(e) => FormatExample(e)
  }

  datatype ExampleRow = ExampleRow(row: SeasonRow, example: string)

  /** `season_stats['Name'].map(examples)`: the example is looked up by the
      row's name only, so rows that share a name share an example. */
  function AttachExamples(rs: seq<StartRecord>, rows: seq<SeasonRow>): (r: seq<ExampleRow>)
    ensures |r| == |rows|
    ensures forall i :: 0 <= i < |r| ==> r[i].row == rows[i] && r[i].example == ExampleFor(rs, rows[i].key.name)
  {
    seq(|rows|, i requires 0 <= i < |rows| => ExampleRow(rows[i], ExampleFor(rs, rows[i].key.name)))
  }

  /** The lookup ignores the team: a pitcher with starts for two teams gets,
      on the row of a team where they had no wasted start, an example taken
      from the other team's start. */
  lemma ExampleIgnoresTeam(first: StartRecord, other: StartRecord)
    requires first.pitcherName == other.pitcherName && first.team != other.team
    requires !first.wastedStart && other.wastedStart
    ensures RowFor(Aggregate([first, other], 1), KeyOf(first)).Some?
    ensures ChosenExample([first, other], KeyOf(first).name) == Some(other)
    ensures ExampleFor([first, other], KeyOf(first).name) == FormatExample(other)
  {
    var rs := [first, other];
    assert first in GroupOf(rs, KeyOf(first));
    AggregateSpec(rs, 1, KeyOf(first));
    WastedOfPair(first, other);
  }

  lemma WastedOfPair(first: StartRecord, other: StartRecord)
    requires first.pitcherName == other.pitcherName
    requires !first.wastedStart && other.wastedStart
    ensures WastedStartsOf([first, other], first.pitcherName) == [other]
  {
    var rs := [first, other];
    assert rs[1..] == [other] && [other][1..] == [];
    assert WastedStartsOf([other], first.pitcherName) == [other] + [];
    assert [other] + [] == [other];
  }
}

=== FILE: wrappers.dfy ===
/** Failure-compatible wrappers used throughout the model: `Option` for the
    source's `None` returns and absent JSON fields, `Result` for Python
    exceptions that escape a function. */
module Wrappers {

  datatype Option<+T> = None | Some(value: T) {

    /** The wrapped value, or `default` when absent (Python's `dict.get(k, default)`). */
    function GetOr(default: T): T {
      match this
      case Some(v) => v
      case None => default
    }
  }

  /** `Failure(e)` stands for an exception `e` that propagates out of the call. */
  datatype Result<+T, +E> = Success(value: T) | Failure(error: E) {

    predicate IsFailure() {
      Failure?
    }

    function PropagateFailure<U>(): Result<U, E>
      requires Failure?
    {
      Failure(error)
    }

    function Extract(): T
      requires Success?
    {
      value
    }
  }
}
